=== FILE: README.md ===
# fb-downloader core, modelled in Dafny

fb-downloader is a small web application. A user pastes a Facebook video link, picks a format and downloads the file. The back end (`app.py`) does the following:
- checks and normalises the link;
- lists the formats the extractor reports, ranked and de-duplicated;
- turns the chosen format into a selector for the fetcher;
- runs the download as a background job, tracking it in two in-memory registries: `download_progress` and `completed_downloads`;
- has a progress hook that reports the fetcher's events into those registries;
- finds the finished file in the output directory and cleans up intermediate streams;
- on a progress request, heals entries that have gone stale.

The page script (`static/script.js`) does the following:
- checks the link before sending it;
- formats durations and file names;
- clamps the displayed percentage;
- polls the progress endpoint on a timer until the download finishes, fails, times out or loses its connection.

The model follows the source file by file:

| file | models |
|---|---|
| `wrappers.dfy` | `Option` and `Result` |
| `text.dfy` | the Python and JavaScript string operations the core relies on (`in`, `lower`, `strip`, `split`, `lastIndexOf`, digits) |
| `safe_filename.dfy` | `generate_safe_filename` and its cache, as the class `FilenameCache` |
| `format_planner.dfy` | the format-selector choice of the background job |
| `ranking.dfy` | Python's `max(key=...)` |
| `format_list.dfy` | quality labels, the stable sort by `(priority, -height, -abr)` and the de-duplication |
| `formats.dfy` | `process_formats_enhanced` |
| `registry.dfy` | the registries (class `Registry`), the output directory (class `OutputDir`), `cleanup_intermediate_files`, `find_completed_file`, the job steps and the staleness check of `get_progress` |
| `progress_hook.dfy` | `OptimizedProgressHook`, both as a pure reaction function and as a class |
| `url_rules.dfy` | `is_facebook_url_valid`, `normalize_facebook_url` and `get_helpful_error_message` |
| `client.dfy` | the page script's URL check, `formatDuration`, `truncateFilename`, the percent clamps, and the polling loop (the function `TickWith` and the class `ProgressTracker`) |

How the model represents the source's inputs and data:
- **Time.** The clock is a parameter: `t` stands for `int(time.time())` and `now` for `time.time()`.
- **Output directory.** It is a listing of `DirFile` records.
- **Missing keys.** A key that is missing or null is `None`, with these exceptions:
  - `format_note`: a missing note is the empty string, and `None` stands for a null note.
  - `ext` and `format_id`: a null value is read as the default (see `Formats.ExtOf` and `Formats.Classify` under "## Left out").
- **Fetcher and extractor.** Their effects are inputs: the events given to the hook, the listing found after a fetch, and the text of a fetch failure.

## Model

| member | source | states |
|---|---|---|
| SafeFilename.FallbackShape | app.py:83 | the timestamped name is `facebook_video_` followed by a non-empty run of digits |
| SafeFilename.KeepSafe | app.py:93 | a character occurs in the result exactly when it occurs in the input and is a word character, whitespace or `-` |
| SafeFilename.KeepSafeConcat | app.py:93 | the filter works piece by piece: filtering `a + b` is filtering `a`, then `b`, so the kept characters stay in input order |
| SafeFilename.Collapse | app.py:96 | collapsing runs of whitespace/`_`: the characters outside runs are exactly those of the input, in order; every run character left is `_`; the result is empty only for an empty input, starts with `_` exactly when the input starts with a run character, never contains `__`, and holds only word characters and `-` when the input had only safe characters |
| SafeFilename.WordPartSkipsRuns | app.py:96 | dropping leading run characters leaves the characters outside runs unchanged |
| SafeFilename.CollapseRun | app.py:96 | a whole run of whitespace/`_` followed by the end or another character becomes one `_` |
| SafeFilename.TrimmedShape | app.py:90-99 | after stripping, filtering, collapsing and trimming, the name holds only word characters and `-`, has no `__` and has no `_`/`-` at either end |
| SafeFilename.TruncatedShape | app.py:101-103 | cutting to 40 characters and trimming again keeps that shape and bounds the length by 40 |
| SafeFilename.CleanIsWellFormed | app.py:90-103 | a cleaned title of at least 3 characters is 3 to 40 word characters or hyphens, with no whitespace, no `__` and no `_`/`-` at either end |
| SafeFilename.SafeNameShape | app.py:82-107 | a blank title gets the timestamped fallback; any other title gets the fallback or a well-formed name |
| SafeFilename.CachedNameShape | app.py:86-87 | a name the cache may hold for a title is a fallback name or a well-formed name |
| SafeFilename.SafeNameIsCachable | app.py:106-110 | the name computed for a non-blank title is one the cache may hold for it |
| SafeFilename.CacheInsertKeepsValid | app.py:110 | storing a new title's name keeps every cache entry consistent with its title |
| SafeFilename.FilenameCache.constructor | app.py:67 | the cache starts empty and consistent |
| SafeFilename.FilenameCache.GenerateSafeFilename | app.py:80-111 | blank title: fallback name, cache unchanged; cached title: the cached name, cache unchanged; new title: its safe name, stored under the title; the result is always a fallback or well-formed name and the cache stays consistent |
| FormatPlanner.Plan | app.py:737-752 | a descriptor with one `+` is used as a manual pair; with two or more `+` the split-and-unpack fails with the number of parts; a video-only descriptor becomes its first word plus `+bestaudio`; any other descriptor is used as it is |
| FormatPlanner.VideoFormatIdHasNoPlus | app.py:745-747 | the first word of a descriptor without `+` has no `+` |
| FormatPlanner.PlanTargetIsStable | app.py:737-752 | every selector the planner produces plans to itself again |
| Ranking.ArgMaxFirst | app.py:582-583 | `max(key=...)` picks a position holding the largest key, and no earlier position holds that key |
| FormatList.QualityTextInjective | app.py:516-591 | two quality labels render to the same text only when they are the same label, so de-duplicating by text is de-duplicating by label |
| FormatList.Insert | app.py:618-622 | inserting into a sorted list gives a sorted list with the same elements plus the new one |
| FormatList.SortFormats | app.py:618-622 | the candidate list is sorted by `(priority, -height, -abr)` and is a permutation of its input |
| FormatList.SortedHead | app.py:618-622 | the head of the sorted list is an input element whose key is at most every other element's |
| FormatList.KeepFromShape | app.py:624-630 | the de-duplication scan only appends, keeps at most 8 entries with distinct labels taken from its input, and when it keeps fewer than 8 every input label is represented |
| FormatList.KeepFromSorted | app.py:624-630 | scanning a sorted list keeps a sorted list |
| FormatList.KeepDistinctProperties | app.py:613-632 | the de-duplicated list has at most 8 entries with distinct labels, all from the input; it starts with the input's first entry, represents every input label unless 8 were kept, and stays sorted |
| FormatList.FirstOfEachLabelQualities | app.py:624-630 | the first entries of each label carry exactly the labels of the input |
| FormatList.FirstOfEachLabelDistinct | app.py:624-630 | the first entries of each label carry each label once |
| FormatList.FirstOfEachLabelAreFirst | app.py:624-630 | each of them is the first entry of the input with its label |
| FormatList.FirstOfEachLabelPrefix | app.py:624-630 | reading more input only appends first entries |
| FormatList.KeepFromFirsts | app.py:624-630 | from any point of the scan with fewer than 8 kept, the scan ends with the first 8 first entries of each label |
| FormatList.KeepDistinctIsFirsts | app.py:613-632 | the de-duplicated list is the first entry of each label, in input order, cut at 8 |
| FormatList.FirstEntryKept | app.py:624-630 | the first entry of a label is kept when fewer than 8 first entries come before it |
| FormatList.FirstNotKeptLiesAfter | app.py:624-632 | the first entry of a label that is not kept comes after all kept entries, and 8 were kept |
| FormatList.NotKeptLiesAfter | app.py:624-632 | any entry whose label is not kept comes after all kept entries, and 8 were kept |
| FormatList.KeepDistinctChoosesFirsts | app.py:613-632 | each kept entry is the first entry of the input with its label; an input entry whose label is not kept lies after all 8 kept entries |
| FormatList.KeepDistinctQualities | app.py:613-632 | the loop with its `seen` set and its break at 8 computes exactly the de-duplicated list |
| Formats.ProbeHeight | app.py:497-508 | the height is that of the first probe whose text the lower-cased note contains, and 0 when none does |
| Formats.InferHeight | app.py:497-508 | a note containing `1080` gives 1080; otherwise `720` gives 720, then `480`, `360` and `240` in that order; a note with none of them gives 0 |
| Formats.Classify | app.py:480-575 | no classified format is a synthesised pair; video-only entries have priority 3 and audio-only entries priority 2 |
| Formats.ClassifyFacts | app.py:480-575 | images are skipped; entries keep the raw id or `unknown`; video-only entries are at least 144 high and carry no audio codec; audio-only entries carry no video codec and never keep `m4a`; combined entries have priority 1 exactly when they carry both codecs; a format with a video codec and a known height is listed exactly when it is at least 144 high |
| Formats.ClassifyAll | app.py:480-575 | every entry the loop produces satisfies the classification facts |
| Formats.ClassifyAllOrigin | app.py:480-575 | every classified entry comes from some raw format that is not an image |
| Formats.ClassifyAllComplete | app.py:480-575 | every raw format the loop does not skip contributes its entry |
| Formats.OfKind | app.py:476-478 | a kind's list holds exactly the classified entries of that kind |
| Formats.NothingClassified | app.py:608-611 | the three kind lists are all empty exactly when nothing was classified |
| Formats.TallestIndex | app.py:582 | the chosen video stream is the first of the tallest |
| Formats.RichestIndex | app.py:583 | the chosen audio stream is the first with the highest bitrate |
| Formats.BestPair | app.py:580-602 | the pair is a priority-1 `mp4` whose id is `<video id>+<audio id>` of the tallest video stream (first on ties) and the richest audio stream; its height and quality label come from that video (`Best Quality + Audio` alone when its height is 0) and its bitrate from that audio, so it is at least as tall as every video stream and has at least the bitrate of every audio stream; its size is the sum of the two sizes when both are known and 0 otherwise |
| Formats.PairIdPlansAsManualPair | app.py:590 | the pair's id, given back as a descriptor, is planned as a manual pair with the id unchanged |
| Formats.CandidatesOrigin | app.py:580-608 | every candidate is a classified entry or the pair, and a pair is present exactly when there is no combined format but there are video-only and audio-only ones |
| Formats.PairComesFirst | app.py:580-622 | when the pair is synthesised it heads the sorted list |
| Formats.SplitByKind | app.py:476-575 | the loop's three lists are the classified entries of each kind, in input order |
| Formats.JoinKinds | app.py:580-608 | the pair step and the concatenation give the candidate list |
| Formats.ProcessFormatsEnhanced | app.py:474-632 | the result is `None` exactly when nothing is classified; otherwise it is 1 to 8 sorted entries with distinct labels, drawn from the classified entries and the pair, representing every candidate label unless cut at 8, and headed by the pair whenever it is needed. It starts with the first sorted candidate and is the first sorted candidate of each label, cut at 8. Each entry is the first sorted candidate with its label, and a candidate whose label is missing lies after all 8 entries |
| Formats.KeepDistinctChosen | app.py:613-632 | de-duplicating a non-empty sorted list keeps its head, and keeps the first entry of each label, cut at 8; a missing label's entries lie after all 8 |
| Formats.SortedListProperties | app.py:607-632 | sorting and de-duplicating the candidates of any well-classified input with candidates yields such a list |
| JobRegistry.SurvivorsExact | app.py:153-171 | a file survives the cleanup exactly when it was listed and is not an intermediate file whose removal succeeds |
| JobRegistry.OutputDir.constructor | app.py:41 | the directory holds the given listing |
| JobRegistry.OutputDir.CleanupIntermediateFiles | app.py:153-171 | one pass removes exactly the removable intermediate files of the job and keeps the rest in order; a failed removal does not stop the pass |
| JobRegistry.FirstCompleted | app.py:129-147 | `None` exactly when no listed file is a recent, non-empty completed candidate; otherwise the first such file |
| JobRegistry.FindCompletedFile | app.py:113-151 | the expected name when it exists non-empty; otherwise `None` if the listing fails, and the first completed candidate if it does not |
| JobRegistry.Mp4Files | app.py:926 | exactly the listed `.mp4` files |
| JobRegistry.Newest | app.py:929 | a listed file whose modification time is at least every other's; among equally new files, the first listed |
| JobRegistry.Heal | app.py:904-971 | only a stale downloading/merging/processing entry is touched; then a completion record makes it finished; a failing listing makes it a timeout error; no `.mp4` leaves it as it is; the newest `.mp4` completes it if under 3 minutes old, otherwise it becomes a timeout error |
| JobRegistry.HealSettles | app.py:904-971 | whatever the check writes is finished or error and stamped now, so a second check at the same moment changes nothing |
| JobRegistry.HealRecordMatchesEntry | app.py:933-948 | a completion record is written only with a finished entry naming the same `.mp4` file and path |
| JobRegistry.ResolveBaseName | app.py:722-731 | a title-less job takes the timestamped name; a titled job goes through `generate_safe_filename`: a blank title gets the timestamped name and leaves the cache alone, a cached title gets its cached name back with the cache unchanged, a new title gets its safe name added as the one new cache entry; the base name is a fallback or well-formed name |
| JobRegistry.Registry.constructor | app.py:65-66 | both registries start empty |
| JobRegistry.Registry.Submit | app.py:676-704 | a blank URL or empty format registers nothing; otherwise the id gets a `starting` entry at 0% and is returned |
| JobRegistry.Registry.StartJob | app.py:706-821 | the job succeeds exactly when the planner accepts the descriptor; on success it returns a well-formed or fallback base name, `<base>.mp4` as the expected file and the plan, and leaves the entry `downloading` at 10%; otherwise the entry is the `Unexpected error: ` entry at 0% of the handler at lines 885-896, carrying the unpack message; on either outcome the file-name cache is unchanged for a missing, blank or cached title and gains exactly the new title's safe name otherwise, and the base name is the timestamped, cached or new safe name accordingly; completions are untouched |
| JobRegistry.Registry.Put | app.py:755-761 | one locked write replaces the id's entry and nothing else |
| JobRegistry.Registry.FetchFailed | app.py:874-884 | a fetcher failure leaves an error entry at 0% whose error text is `Download failed: ` plus the failure text |
| JobRegistry.Registry.VerifyAfterFetch | app.py:828-854 | with no recorded completion, a file found in the directory is recorded as completed and finished, and the cleanup runs; nothing changes when none is found or a completion exists |
| JobRegistry.Registry.GetProgress | app.py:898-973 | the returned snapshot and both registry writes are those of the staleness check on the current state |
| ProgressHook.EventPercent | app.py:189-200 | with a known total the percent is downloaded/total·100 and lies in 0..100 when downloaded ≤ total |
| ProgressHook.RatioPercent | app.py:193-194 | the percent times the total equals the downloaded bytes times 100 |
| ProgressHook.RatioPercentMonotone | app.py:193-194 | more downloaded bytes of the same total never give a smaller percent |
| ProgressHook.Basename | app.py:223 | the base name has no `/` and ends the path; a path with no `/` is its own base name |
| ProgressHook.React | app.py:183-242 | a downloading event writes an entry only when the percent moved by at least 1 or 2 seconds have passed, capping the percent at 99 and remembering the uncapped percent; a finished event for a separate stream does nothing, and for the final file writes a finished entry at 100%, records the completion and cleans up; an error event writes an error at 0% with the event's text or `Unknown download error` |
| ProgressHook.EmittedWithin | app.py:202-220 | every written percent of a stream of downloading events lies between min(lowest percent, 99) and 99 |
| ProgressHook.EmittedNonDecreasing | app.py:189-220 | for a download whose byte count only grows against a fixed total, the written percents never decrease and never pass 99 |
| ProgressHook.FinishedCanBeOverwritten | app.py:206-228 | a later downloading event that passes the debounce replaces a finished entry |
| ProgressHook.OptimizedProgressHook.constructor | app.py:174-181 | the hook starts at 0% with the creation time as its last update |
| ProgressHook.OptimizedProgressHook.Call | app.py:183-242 | the hook's fields, both registries and the directory change exactly as the reaction function says |
| ProgressHook.OptimizedProgressHook.MarkCompleted | app.py:244-265 | the completion is recorded, the entry becomes finished at 100% and the job's intermediate files are cleaned up |
| UrlRules.FacebookUrlValidIff | app.py:18-33 | a URL is valid exactly when it is non-empty and its lower-case form contains `facebook.com` or `fb.watch` |
| UrlRules.MentionIsValid | app.py:18-33 | a URL that contains `facebook.com` or `fb.watch` as written is valid |
| UrlRules.ReplaceAll | app.py:341 | with no occurrence the text is unchanged; with one, the replacement appears in the result |
| UrlRules.ReplaceAllLeftmost | app.py:341 | the text before the leftmost occurrence is kept, that occurrence becomes the replacement, and the rest is rewritten the same way |
| UrlRules.FindVideoId | app.py:348-351 | `None` exactly when there is no run of 15 or more digits; otherwise a run of at least 15 digits taken from the text |
| UrlRules.FindVideoIdLeftmost | app.py:348-351 | the identifier found starts at the leftmost place where 15 digits begin, and runs to the last digit of that run |
| UrlRules.AfterScheme | app.py:355 | a scheme is removed exactly when the URL starts with an ASCII letter and scheme characters up to a `:`; the text after that `:` is what remains |
| UrlRules.NetlocOf | app.py:355 | the network location is what follows a leading `//` up to the first `/`, `?` or `#`, and is empty without `//` |
| UrlRules.NetlocOfUnique | app.py:355 | that description fixes the network location: two locations of the same text are equal |
| UrlRules.ParseNetloc | app.py:355 | when the URL parses, the host part is its network location after the scheme, a piece of the URL; parsing fails exactly when that location has a `[` without a `]` or the reverse |
| UrlRules.NormalizeFacebookUrl | app.py:333-363 | a `fb.watch` link is returned as it is |
| UrlRules.RewriteKeepsFacebook | app.py:341 | rewriting `m.facebook.com` to `www.facebook.com` keeps a `facebook.com` mention |
| UrlRules.DomainCheckIsValid | app.py:354-363 | the domain check returns only its own input, and only a valid URL |
| UrlRules.FacebookLinkIsValid | app.py:343-358 | a video-path link, a rebuilt `watch/?v=` link and a link passing the domain check are all valid |
| UrlRules.NormalizedIsValid | app.py:333-363 | every normalised URL is accepted by `is_facebook_url_valid` |
| UrlRules.MessageForReadsBack | app.py:634-673 | each message starts with the opening sentence of its own kind and no other |
| UrlRules.MessageNamesItsKind | app.py:634-673 | the kind read back from a message is the kind of the error that produced it |
| UrlRules.GenericMessageQuotesError | app.py:661-673 | an unrecognised error's message quotes the error text |
| UrlRules.ErrorKindIgnoresCase | app.py:636 | classifying an error ignores its letter case |
| Client.ClientAgreesWithServer | static/script.js:570-577 | the page accepts exactly the URLs the server's `is_facebook_url_valid` accepts |
| Client.Pad2ReadsBack | static/script.js:582 | the padded seconds are two digits that read back as the number |
| Client.FormatDurationReadsBack | static/script.js:578-583 | the text is non-empty minutes digits, a colon and two digits below 60, and minutes·60 + seconds gives back the duration |
| Client.PrefixUpTo | static/script.js:599-600 | `substring(0, end)` is a prefix of its input, with exactly `end` characters when `end` is in range |
| Client.NameSplitsAtLastDot | static/script.js:598-599 | the extension has no dot; a name with a dot is its base name, a dot and the extension; a dotless name is all extension with an empty base |
| Client.ShortNameUnchanged | static/script.js:597 | a name that fits is returned unchanged |
| Client.LongNameTruncated | static/script.js:598-601 | a name that does not fit becomes a prefix of its base name followed by `...`, a dot and the extension |
| Client.LongNameFitsExactly | static/script.js:598-601 | with a dot and room for the extension, the result is exactly `maxLength` long |
| Client.DotlessNameGrows | static/script.js:598-601 | a dotless name that does not fit comes back as `...` + `.` + the name, longer than before |
| Client.DisplayPercentBounded | static/script.js:510 | the bar never shows more than 100; a reported value up to 100 is shown as is; a missing one is shown as 0 |
| Client.FinishingDisplayInRange | static/script.js:487-494 | while merging or processing the bar shows between 95 and 100 |
| Client.TickRules | static/script.js:440-505 | past 180 attempts the tracker stops with the timeout text; a changed percent resets the no-progress counter or restarts; a failed poll adds one failure and stops the tracker after more than 15 |
| Client.TickUsesBudget | static/script.js:440-507 | with the slow-down kept, every tick of a running tracker uses up budget |
| Client.StoppedStays | static/script.js:440-507 | a stopped tracker never changes again |
| Client.RunStops | static/script.js:433-507 | with the slow-down kept, a tracker stops within its budget of polls |
| Client.TrackerStops | static/script.js:433-507 | with the slow-down kept, a tracker started by the page stops within 362 polls, whatever they bring |
| Client.AsWrittenNeverStops | static/script.js:433-472 | as written, a download stuck at 60% brings the tracker back to its starting state after every poll, for any number of polls |
| Client.ProgressTracker.constructor | static/script.js:421-439 | a new tracker polls every 2000 ms with zero attempts and failures, and remembers the interval it restarts at |
| Client.ProgressTracker.OnTick | static/script.js:440-507 | the new state and the effect shown are those of the tick function at the tracker's restart interval, and the page's check counter counts each tick of a running tracker. A tracker built with `InitialInterval` is the page as written (`AsWrittenNeverStops`); one built with `SlowInterval` is the corrected page (`TrackerStops`) |

## Left out

- The calls into the extractor and fetcher (`yt_dlp`) are left out. Their results enter as parameters: the raw format list, the title, hook events, the listing after a fetch and the failure text.
- FastAPI routing, templates, file serving and the HTTP error responses are left out. So is the `/progress` handler's `not_found` reply, which the model shows as `None`.
- The threads and `progress_lock` are left out: every registry write is atomic in the model.
- The DOM, `fetch`, timers and toasts in the page script are left out. Overlapping asynchronous ticks are not modelled either: each tick completes before the next fires.
- `formatNumber` and `formatFileSize` in the page script are left out, because they are floating-point display only.
- Word characters (`\w`), digits (`\d`) and lower-casing are ASCII only. Python and JavaScript apply Unicode rules to them.
- URL parsing keeps only the host-part extraction of `urlparse`. It leaves out:
  - the removal of tabs and newlines;
  - the stripping of leading control characters;
  - the validation of bracketed hosts beyond a bracket mismatch;
  - the error `urlsplit` raises for a non-ASCII network location whose NFKC form gains a `/`, `?`, `#`, `@` or `:`. No Unicode normalisation is modelled.
- ProgressHook.EventPercent: `_percent_str` parsing is left out. The caller passes the reported percent as a number.
- Client.FormatDuration: whole, non-negative seconds only. A fractional JavaScript duration, which `%` keeps fractional, is not modelled.
- Client.PercentOr: NaN is not modelled. Percents are reals.
- FormatList.SortFormats: the contract states sorted-and-permutation only. The stability of Python's sort (equal keys keep their order) is built into `Insert` but is not stated as a property.
- JobRegistry.Registry.StartJob: the planner fails only on three or more parts. Its message is modelled in the wording of Python before 3.12, `too many values to unpack (expected 2)`. Python 3.12 and later add the count of parts, which the model keeps in `TooManyValuesToUnpack`.
- JobRegistry.Registry.StartJob: the information lookup is a parameter. A failed lookup and a null title are both `None`; a missing title is `Some("facebook_video")`.
- The job steps after the hand-over (the fetch itself, the 20-second merge wait and `process_downloaded_file`) are not part of this model.
- JobRegistry.Heal: a listing that raises turns the entry into a timeout error, as the `except` of lines 961-971 does. The model does not distinguish which call raised.
- UrlRules.NormalizeFacebookUrl: its contract states only the `fb.watch` case. The other cases are covered by `NormalizedIsValid` and by the branch structure of `FacebookLink` and `DomainCheck`.
- The `url` parameter of `get_helpful_error_message` is never read by the source, so the model ignores it.
- JobRegistry.OutputDir.CleanupIntermediateFiles: a listing of the directory that raises would make the cleanup remove nothing. That path is not modelled; only failures of single removals are.
- ProgressHook.React: an `error` event whose `error` key holds null writes null in the source. The model reads a null as a missing key and writes `Unknown download error`.
- Formats.ExtOf: a format whose `ext` key is present but null reads as `mp4`. The source keeps `None` (lines 482-483), lists such an entry with a null extension and never skips it as an image.
- Formats.Classify: a format whose `format_id` key is present but null gets the id `unknown`. The source keeps `None`, which a synthesised pair renders as `None` in its `<video>+<audio>` id (line 590).
- Client.TruncateFilename: lengths and `substring` positions count characters (code points). JavaScript counts UTF-16 code units, so a name with characters outside the Basic Multilingual Plane is cut at a different place.
- The hook's catch-all `except`, for example for a malformed event without `filename`, is left out.
- The hook has no guard against writing over a terminal state. An idempotent finished state may be intended, but the code does not enforce one. The model follows the code, and `FinishedCanBeOverwritten` shows the overwrite.

## Findings

| source | as written | input that shows it | evidently intended | confidence | as-written member | corrected member |
|---|---|---|---|---|---|---|
| static/script.js:467-472 | the slow-down restart calls `startProgressTracking()`, whose fresh closure sets `pollInterval = 2000`, `attempts = 0` and `lastPercent = 0` again | a download whose progress stays at 60%: every poll sees 60 ≠ 0, restarts at 2000 ms with zero attempts, so the 180-attempt timeout never fires and polling never slows | the restarted tracker polls every 3000 ms, so the restart happens once and the tracker stops within 2·181 polls | not executed | Client.AsWrittenNeverStops | Client.TrackerStops |

=== FILE: client.dfy ===
/** The browser side of the downloader: the URL pre-check, the duration and
    file-name formatting shown in the page, the clamps on the displayed
    percentage, and the polling loop that follows a download's progress. */
module Client {
  import opened Wrappers
  import opened Text
  import opened JobRegistry
  import UrlRules

  // ---------------------------------------------------------------------------
  // `isValidFacebookUrl`

  /** The client's URL check: the lower-cased URL mentions `facebook.com`,
      `fb.watch` or `m.facebook.com`. */
  predicate IsValidFacebookUrlClient(url: string) {
    var u := Lower(url);
    Contains(u, UrlRules.FacebookDomain) || Contains(u, UrlRules.ShortDomain) || Contains(u, UrlRules.MobileDomain)
  }

  /** The client accepts exactly what the server's `is_facebook_url_valid`
      accepts: the `m.facebook.com` clause adds nothing, and an empty URL
      mentions nothing. */
  lemma ClientAgreesWithServer(url: string)
    ensures IsValidFacebookUrlClient(url) <==> UrlRules.IsFacebookUrlValid(url)
  {
    var u := Lower(url);
    UrlRules.FacebookUrlValidIff(url);
    if Contains(u, UrlRules.MobileDomain) {
      ContainsParts("m.", UrlRules.FacebookDomain);
      ContainsTransitive(u, UrlRules.MobileDomain, UrlRules.FacebookDomain);
    }
  }

  // ---------------------------------------------------------------------------
  // `formatDuration`

  /** `n.toString().padStart(2, "0")` for `n < 100`. */
  function Pad2(n: nat): string
    requires n < 100
  {
    if n < 10 then "0" + NatToString(n) else NatToString(n)
  }

  /** `formatDuration(seconds)` for a whole number of seconds: `m:ss`. */
  function FormatDuration(seconds: nat): string {
    if seconds == 0 then "0:00"
    else NatToString(seconds / 60) + ":" + Pad2(seconds % 60)
  }

  /** The two digits of `Pad2` read back as the number. */
  lemma Pad2ReadsBack(n: nat)
    requires n < 100
    ensures |Pad2(n)| == 2 && AllDigits(Pad2(n)) && ParseDigits(Pad2(n)) == n
  {
    NatToStringRoundTrip(n);
    if n < 10 {
      var p := Pad2(n);
      assert p[..1] == "0";
      assert ParseDigits(p) == ParseDigits("0") * 10 + (p[1] as int - '0' as int);
    } else {
      assert NatToString(n) == NatToString(n / 10) + [DigitChar(n % 10)];
    }
  }

  /** The formatted duration is minutes, a colon and two digits of seconds
      below 60, and it reads back as the number of seconds it shows. */
  lemma FormatDurationReadsBack(seconds: nat)
    ensures var parts := Split(FormatDuration(seconds), ':');
      && |parts| == 2
      && parts[0] != [] && AllDigits(parts[0])
      && |parts[1]| == 2 && AllDigits(parts[1])
      && ParseDigits(parts[1]) < 60
      && ParseDigits(parts[0]) * 60 + ParseDigits(parts[1]) == seconds
  {
    var mins := NatToString(seconds / 60);
    var secs := Pad2(seconds % 60);
    NatToStringRoundTrip(seconds / 60);
    Pad2ReadsBack(seconds % 60);
    assert FormatDuration(seconds) == mins + [':'] + secs;
    SplitAtOnlySeparator(mins, secs, ':');
  }

  // ---------------------------------------------------------------------------
  // `truncateFilename`

  /** JavaScript `s.substring(0, end)`: `end` is clamped into `0..|s|`. */
  function PrefixUpTo(s: string, end: int): (r: string)
    ensures |r| <= |s| && r == s[..|r|]
    ensures 0 <= end <= |s| ==> |r| == end
  {
    if end <= 0 then [] else if end >= |s| then s else s[..end]
  }

  /** `filename.split(".").pop()`. */
  function Extension(filename: string): string {
    var parts := Split(filename, '.');
    parts[|parts| - 1]
  }

  /** `filename.substring(0, filename.lastIndexOf("."))`: empty when there is no dot. */
  function BaseName(filename: string): string {
    PrefixUpTo(filename, LastIndexOf(filename, '.'))
  }

  /** `truncateFilename(filename, maxLength)`. */
  function TruncateFilename(filename: string, maxLength: int): string {
    if |filename| <= maxLength then filename
    else
      var ext := Extension(filename);
      PrefixUpTo(BaseName(filename), maxLength - |ext| - 4) + "..." + "." + ext
  }

  /** With a dot, the file name is its base name, the last dot and the extension;
      without one, the extension is the whole name and the base name is empty. */
  lemma NameSplitsAtLastDot(filename: string)
    ensures '.' !in Extension(filename)
    ensures '.' in filename ==> filename == BaseName(filename) + "." + Extension(filename)
    ensures '.' !in filename ==> Extension(filename) == filename && BaseName(filename) == []
  {
    LastPartFollowsLastSeparator(filename, '.');
    var i := LastIndexOf(filename, '.');
    if '.' in filename {
      var k :| 0 <= k < |filename| && filename[k] == '.';
      assert i >= 0;
      assert filename == filename[..i] + "." + filename[i + 1..];
    }
  }

  /** A name that fits is returned unchanged. */
  lemma ShortNameUnchanged(filename: string, maxLength: int)
    requires |filename| <= maxLength
    ensures TruncateFilename(filename, maxLength) == filename
  {
  }

  /** A name that does not fit becomes a prefix of its base name, `...`, a dot
      and the extension. */
  lemma LongNameTruncated(filename: string, maxLength: int)
    requires |filename| > maxLength
    ensures var r := TruncateFilename(filename, maxLength);
      var ext := Extension(filename);
      && EndsWith(r, "..." + "." + ext)
      && StartsWith(BaseName(filename), r[..|r| - |ext| - 4])
  {
    var ext := Extension(filename);
    var base := BaseName(filename);
    var kept := PrefixUpTo(base, maxLength - |ext| - 4);
    var tail := "..." + "." + ext;
    assert TruncateFilename(filename, maxLength) == kept + tail;
    assert |tail| == |ext| + 4;
    ConcatEnds(kept, tail);
  }

  /** The two pieces of a concatenation are its prefix and its suffix. */
  lemma ConcatEnds(a: string, b: string)
    ensures EndsWith(a + b, b) && (a + b)[..|a + b| - |b|] == a
  {
    assert (a + b)[|a + b| - |b|..] == b;
  }

  /** With a dot and room for the extension, a name that does not fit is cut
      to exactly `maxLength` characters. */
  lemma LongNameFitsExactly(filename: string, maxLength: int)
    requires |filename| > maxLength
    requires '.' in filename && maxLength >= |Extension(filename)| + 4
    ensures |TruncateFilename(filename, maxLength)| == maxLength
  {
    NameSplitsAtLastDot(filename);
    assert |BaseName(filename)| == |filename| - |Extension(filename)| - 1;
  }

  /** Without a dot, a name that does not fit comes back as `...`, a dot and
      the whole name: longer than it was. */
  lemma DotlessNameGrows(filename: string, maxLength: int)
    requires |filename| > maxLength && '.' !in filename
    ensures TruncateFilename(filename, maxLength) == "..." + "." + filename
    ensures |TruncateFilename(filename, maxLength)| > |filename|
  {
    NameSplitsAtLastDot(filename);
  }

  // ---------------------------------------------------------------------------
  // The displayed percentage

  /** JavaScript `p || d` on a percentage that may be absent: a missing value
      and 0 both give `d`. */
  function PercentOr(p: Option<real>, d: real): real {
    if p.Some? && p.value != 0.0 then p.value else d
  }

  /** `Math.min(progress.percent || 0, 100)` in `updateProgress`. */
  function DisplayPercent(p: Option<real>): real {
    Min(PercentOr(p, 0.0), 100.0)
  }

  /** `Math.max(progress.percent || 95, 95)`: the percentage passed on for the
      `merging` and `processing` statuses. */
  function FinishingPercent(p: Option<real>): real {
    Max(PercentOr(p, 95.0), 95.0)
  }

  /** The bar never shows more than 100; a reported value up to 100 is shown as
      is, and a missing one as 0. */
  lemma DisplayPercentBounded(p: Option<real>)
    ensures DisplayPercent(p) <= 100.0
    ensures p.Some? && p.value <= 100.0 ==> DisplayPercent(p) == p.value
    ensures p.None? ==> DisplayPercent(p) == 0.0
  {
  }

  /** While merging or processing, the bar shows between 95 and 100. */
  lemma FinishingDisplayInRange(p: Option<real>)
    ensures 95.0 <= DisplayPercent(Some(FinishingPercent(p))) <= 100.0
  {
  }

  // ---------------------------------------------------------------------------
  // The polling loop of `startProgressTracking`

  const MaxAttempts: nat := 180
  const MaxFailures: nat := 15
  const InitialInterval: nat := 2000
  const SlowInterval: nat := 3000
  const SlowDownPercent: real := 50.0

  const TimeoutText: string := "Download timeout. Please try again."
  const ConnectionLostText: string := "Connection lost. Please check your internet and try again."
  const FailedText: string := "Download failed"
  const PreparingText: string := "Preparing download..."

  /** What one poll of `/progress/<id>` brought: a failure of the request or of
      its JSON, or the snapshot's fields. A `status` outside the known ones
      (`not_found`) is `None`. */
  datatype Poll =
    | FetchFailed
    | Snapshot(status: Option<Status>, percent: Option<real>, message: Option<string>,
               error: Option<string>, filename: Option<string>)

  /** What a tick shows on the page. */
  datatype Effect =
    | NoChange
    | ShowProgress(percent: real)
    | ShowLoading(text: string)
    | Complete(filename: Option<string>)
    | ShowError(message: string)

  /** The closure state of one `startProgressTracking` call: `attempts`,
      `consecutiveNoProgress`, `lastPercent`, `pollInterval`, and whether its
      interval timer is still set. */
  datatype Tracker = Tracker(attempts: nat, noProgress: nat, lastPercent: real, interval: nat, running: bool)

  /** A freshly started tracker polling every `interval` milliseconds. */
  function StartWith(interval: nat): Tracker {
    Tracker(0, 0, 0.0, interval, true)
  }

  /** JavaScript `text || fallback` on an optional string. */
  function TextOr(t: Option<string>, fallback: string): string {
    if t.Some? && t.value != "" then t.value else fallback
  }

  /** One tick of the interval callback. `restartInterval` is the interval the
      tracker polls at after the slow-down restart; the source restarts with
      the fresh closure's 2000 ms. */
  function TickWith(s: Tracker, p: Poll, restartInterval: nat): (Tracker, Effect) {
    if !s.running then (s, NoChange)
    else
      var attempts := s.attempts + 1;
      var t := s.(attempts := attempts);
      if attempts > MaxAttempts then (t.(running := false), ShowError(TimeoutText))
      else match p
        case FetchFailed =>
          if s.noProgress + 1 > MaxFailures then
            (t.(noProgress := s.noProgress + 1, running := false), ShowError(ConnectionLostText))
          else (t.(noProgress := s.noProgress + 1), NoChange)
        case Snapshot(status, percent, message, error, filename) =>
          match status
          case Some(Downloading) =>
            var current := PercentOr(percent, 0.0);
            var shown := ShowProgress(DisplayPercent(percent));
            if current == s.lastPercent then (t.(noProgress := s.noProgress + 1), shown)
            else if current > SlowDownPercent && s.interval < SlowInterval then (StartWith(restartInterval), shown)
            else (t.(noProgress := 0, lastPercent := current), shown)
          case Some(Finished) => (t.(running := false), Complete(filename))
          case Some(Error) => (t.(running := false), ShowError(TextOr(error, FailedText)))
          case Some(Starting) => (t, ShowLoading(TextOr(message, PreparingText)))
          case Some(Preparing) => (t, ShowLoading(TextOr(message, PreparingText)))
          case Some(Merging) => (t, ShowProgress(DisplayPercent(Some(FinishingPercent(percent)))))
          case Some(Processing) => (t, ShowProgress(DisplayPercent(Some(FinishingPercent(percent)))))
          case None => (t, NoChange)
  }

  /** The tick as written: the restart starts a fresh closure whose
      `pollInterval` is 2000 again. */
  function TickAsWritten(s: Tracker, p: Poll): (Tracker, Effect) {
    TickWith(s, p, InitialInterval)
  }

  /** The tick with the slow-down kept: the restarted tracker polls every 3000 ms. */
  function Tick(s: Tracker, p: Poll): (Tracker, Effect) {
    TickWith(s, p, SlowInterval)
  }

  /** The tracker after a sequence of polls. */
  function Run(s: Tracker, polls: seq<Poll>, restartInterval: nat): Tracker
    decreases |polls|
  {
    if polls == [] then s else Run(TickWith(s, polls[0], restartInterval).0, polls[1..], restartInterval)
  }

  /** The documented rules of one tick: past 180 attempts it stops with the
      timeout message; a percentage change resets the no-progress counter (or
      restarts the tracker); more than 15 failures in a row stop it with the
      connection message. */
  lemma TickRules(s: Tracker, p: Poll, restartInterval: nat)
    requires s.running
    ensures var (t, e) := TickWith(s, p, restartInterval);
      && (s.attempts + 1 > MaxAttempts ==> !t.running && e == ShowError(TimeoutText))
      && ((s.attempts + 1 <= MaxAttempts && p.Snapshot? && p.status == Some(Downloading)
             && PercentOr(p.percent, 0.0) != s.lastPercent)
            ==> t.noProgress == 0 && (t.lastPercent == PercentOr(p.percent, 0.0) || t == StartWith(restartInterval)))
      && (s.attempts + 1 <= MaxAttempts && p.FetchFailed? ==>
            t.noProgress == s.noProgress + 1 && (t.running <==> s.noProgress + 1 <= MaxFailures)
            && (!t.running ==> e == ShowError(ConnectionLostText)))
  {
  }

  /** A running tracker has not yet used up its attempts. */
  ghost predicate Sane(s: Tracker) {
    s.running ==> s.attempts <= MaxAttempts
  }

  /** Ticks left before a sane tracker must stop: the attempts left, plus a
      full second round while a slow-down restart is still possible. */
  function Budget(s: Tracker): nat {
    if !s.running || s.attempts > MaxAttempts then 0
    else (MaxAttempts + 1 - s.attempts) + (if s.interval < SlowInterval then MaxAttempts + 1 else 0)
  }

  /** With the slow-down kept, every tick of a running tracker uses up budget
      and keeps it sane. */
  lemma TickUsesBudget(s: Tracker, p: Poll)
    requires Sane(s) && s.running
    ensures Sane(Tick(s, p).0)
    ensures Budget(Tick(s, p).0) < Budget(s)
  {
  }

  /** A stopped tracker stays as it is. */
  lemma {:induction false} StoppedStays(s: Tracker, polls: seq<Poll>, restartInterval: nat)
    requires !s.running
    ensures Run(s, polls, restartInterval) == s
    decreases |polls|
  {
    if polls != [] {
      StoppedStays(s, polls[1..], restartInterval);
    }
  }

  /** With the slow-down kept, any `Budget(s)` polls stop a sane tracker. */
  lemma {:induction false} RunStops(s: Tracker, polls: seq<Poll>)
    requires Sane(s) && |polls| >= Budget(s)
    ensures !Run(s, polls, SlowInterval).running
    decreases |polls|
  {
    if s.running {
      TickUsesBudget(s, polls[0]);
      RunStops(Tick(s, polls[0]).0, polls[1..]);
    } else {
      StoppedStays(s, polls, SlowInterval);
    }
  }

  /** With the slow-down kept, a tracker started by the page stops within 362
      polls, whatever they bring. */
  lemma TrackerStops(polls: seq<Poll>)
    requires |polls| >= 2 * (MaxAttempts + 1)
    ensures !Run(StartWith(InitialInterval), polls, SlowInterval).running
  {
    RunStops(StartWith(InitialInterval), polls);
  }

  /** A poll reporting a download at 60%. */
  const StuckAt60: Poll := Snapshot(Some(Downloading), Some(60.0), None, None, None)

  /** As written, a tracker restarted above 50% is back where it started after
      the next poll at 60%: the restart resets `pollInterval` to 2000 together
      with `attempts`, so a download stuck above 50% is polled for ever and the
      180-attempt timeout never fires. */
  lemma {:induction false} AsWrittenNeverStops(n: nat)
    ensures Run(StartWith(InitialInterval), seq(n, _ => StuckAt60), InitialInterval) == StartWith(InitialInterval)
  {
    var polls := seq(n, _ => StuckAt60);
    assert TickAsWritten(StartWith(InitialInterval), StuckAt60).0 == StartWith(InitialInterval);
    if n > 0 {
      AsWrittenNeverStops(n - 1);
      assert polls[1..] == seq(n - 1, _ => StuckAt60);
    }
  }

  /** The page's tracker: the closure state and the `progressCheckCount` field.
      `restartInterval` is the interval the tracker polls at after the
      slow-down restart: the page as written restarts at `InitialInterval`
      (see `AsWrittenNeverStops`), and `SlowInterval` keeps the slow-down
      (see `TrackerStops`). */
  class ProgressTracker {
    const restartInterval: nat
    var attempts: nat
    var consecutiveNoProgress: nat
    var lastPercent: real
    var pollInterval: nat
    var running: bool
    var progressCheckCount: nat

    function State(): Tracker
      reads this
    {
      Tracker(attempts, consecutiveNoProgress, lastPercent, pollInterval, running)
    }

    /** `startDownload` zeroes `progressCheckCount` and starts tracking. */
    constructor (restart: nat)
      ensures State() == StartWith(InitialInterval) && progressCheckCount == 0
      ensures restartInterval == restart
    {
      restartInterval := restart;
      attempts := 0;
      consecutiveNoProgress := 0;
      lastPercent := 0.0;
      pollInterval := InitialInterval;
      running := true;
      progressCheckCount := 0;
    }

    /** One firing of the interval callback. */
    method OnTick(p: Poll) returns (effect: Effect)
      modifies this
      ensures (State(), effect) == TickWith(old(State()), p, restartInterval)
      ensures progressCheckCount == old(progressCheckCount) + (if old(running) then 1 else 0)
    {
      effect := NoChange;
      if !running {
        return;
      }
      attempts := attempts + 1;
      progressCheckCount := progressCheckCount + 1;
      if attempts > MaxAttempts {
        running := false;
        effect := ShowError(TimeoutText);
        return;
      }
      match p {
        case FetchFailed =>
          consecutiveNoProgress := consecutiveNoProgress + 1;
          if consecutiveNoProgress > MaxFailures {
            running := false;
            effect := ShowError(ConnectionLostText);
          }
        case Snapshot(status, percent, message, error, filename) =>
          match status {
            case Some(Downloading) =>
              effect := ShowProgress(DisplayPercent(percent));
              var current := PercentOr(percent, 0.0);
              if current == lastPercent {
                consecutiveNoProgress := consecutiveNoProgress + 1;
              } else if current > SlowDownPercent && pollInterval < SlowInterval {
                attempts, consecutiveNoProgress, lastPercent, pollInterval := 0, 0, 0.0, restartInterval;
              } else {
                consecutiveNoProgress := 0;
                lastPercent := current;
              }
            case Some(Finished) =>
              running := false;
              effect := Complete(filename);
            case Some(Error) =>
              running := false;
              effect := ShowError(TextOr(error, FailedText));
            case Some(Starting) =>
              effect := ShowLoading(TextOr(message, PreparingText));
            case Some(Preparing) =>
              effect := ShowLoading(TextOr(message, PreparingText));
            case Some(Merging) =>
              effect := ShowProgress(DisplayPercent(Some(FinishingPercent(percent))));
            case Some(Processing) =>
              effect := ShowProgress(DisplayPercent(Some(FinishingPercent(percent))));
            case None =>
          }
      }
    }
  }
}

=== FILE: format_list.dfy ===
/** Listed formats: quality labels, the sort key of the format list, its
    stable sort and the de-duplication of quality labels. */
module FormatList {
  import opened Text

  const MaxFormats: nat := 8

  datatype Kind = Combined | VideoOnly | AudioOnly | BestCombined

  /** The suffix after `<height>p` in a quality label. */
  datatype Tag = VideoAndAudio | VideoOnlyTag | NoTag | BestQualityAndAudio

  /** A quality label in structured form; `QualityText` renders it as the text
      the user sees, and `QualityTextInjective` shows that two labels render
      alike only when they are equal, so comparing labels here is comparing
      their texts. */
  datatype Quality = Sized(height: nat, tag: Tag) | VideoLabel | AudioOnlyLabel | BestQualityAndAudioLabel

  function TagText(t: Tag): string {
    match t
    case VideoAndAudio => "p (Video + Audio)"
    case VideoOnlyTag => "p (Video Only)"
    case NoTag => "p"
    case BestQualityAndAudio => "p (Best Quality + Audio)"
  }

  function QualityText(q: Quality): string {
    match q
    case Sized(h, t) => NatToString(h) + TagText(t)
    case VideoLabel => "Video"
    case AudioOnlyLabel => "Audio Only"
    case BestQualityAndAudioLabel => "Best Quality + Audio"
  }

  /** Two digit strings each followed by text starting with a non-digit are
      split the same way when the whole strings agree. */
  lemma DigitPrefixUnique(a: string, x: string, b: string, y: string)
    requires AllDigits(a) && AllDigits(b) && a + x == b + y
    requires x != [] && y != [] && !IsDigit(x[0]) && !IsDigit(y[0])
    ensures a == b && x == y
  {
    var s := a + x;
    assert s == b + y;
    assert s[|a|] == x[0] && s[|b|] == y[0];
    assert forall k :: 0 <= k < |a| ==> s[k] == a[k];
    assert forall k :: 0 <= k < |b| ==> s[k] == b[k];
    assert |a| == |b|;
    assert a == (a + x)[..|a|] && b == (b + y)[..|b|];
    assert x == (a + x)[|a|..] && y == (b + y)[|b|..];
  }

  /** A label's text starts with a digit exactly when it carries a height. */
  lemma QualityTextLead(q: Quality)
    ensures QualityText(q) != [] && (IsDigit(QualityText(q)[0]) <==> q.Sized?)
  {
    if q.Sized? {
      NatToStringRoundTrip(q.height);
      assert QualityText(q)[0] == NatToString(q.height)[0];
    }
  }

  /** A sized label's text determines its height and its tag. */
  lemma SizedTextInjective(h1: nat, t1: Tag, h2: nat, t2: Tag)
    requires NatToString(h1) + TagText(t1) == NatToString(h2) + TagText(t2)
    ensures h1 == h2 && t1 == t2
  {
    NatToStringRoundTrip(h1);
    NatToStringRoundTrip(h2);
    assert TagText(t1)[0] == 'p' && TagText(t2)[0] == 'p';
    DigitPrefixUnique(NatToString(h1), TagText(t1), NatToString(h2), TagText(t2));
    assert |TagText(t1)| == |TagText(t2)|;
  }

  /** Distinct labels have distinct texts. */
  lemma QualityTextInjective(q1: Quality, q2: Quality)
    requires QualityText(q1) == QualityText(q2)
    ensures q1 == q2
  {
    QualityTextLead(q1);
    QualityTextLead(q2);
    if q1.Sized? && q2.Sized? {
      SizedTextInjective(q1.height, q1.tag, q2.height, q2.tag);
    } else if !q1.Sized? && !q2.Sized? {
      assert |QualityText(q1)| == |QualityText(q2)|;
    }
  }

  /** A listed format. Keys a kind of entry does not carry (an audio entry's
      height, a video entry's `abr`) read as 0 or the empty string, as the
      sort key's `get(..., 0)` reads them. */
  datatype Format = Format(
    formatId: string,
    quality: Quality,
    ext: string,
    filesize: nat,
    kind: Kind,
    height: nat,
    width: nat,
    fps: real,
    vcodec: string,
    acodec: string,
    abr: real,
    priority: nat)

  // ---------------------------------------------------------------------------
  // Ordering: `sort(key=(priority, -height, -abr))`, which is stable

  /** `a`'s sort key is at most `b`'s. */
  predicate KeyLe(a: Format, b: Format) {
    a.priority < b.priority
    || (a.priority == b.priority && (a.height > b.height || (a.height == b.height && a.abr >= b.abr)))
  }

  predicate SortedByKey(s: seq<Format>) {
    forall i, j :: 0 <= i <= j < |s| ==> KeyLe(s[i], s[j])
  }

  lemma SortedCons(a: Format, t: seq<Format>)
    requires SortedByKey(t)
    requires forall y :: y in t ==> KeyLe(a, y)
    ensures SortedByKey([a] + t)
  {
    var s := [a] + t;
    forall i, j | 0 <= i <= j < |s|
      ensures KeyLe(s[i], s[j])
    {
      if i == 0 && j > 0 {
        assert s[j] == t[j - 1];
        assert s[j] in t;
      } else if i > 0 {
        assert s[i] == t[i - 1] && s[j] == t[j - 1];
      }
    }
  }

  /** The first element of a sorted list is below every element. */
  lemma SortedFirstIsLeast(s: seq<Format>)
    requires SortedByKey(s) && s != []
    ensures forall y :: y in s ==> KeyLe(s[0], y)
  {
    forall y | y in s ensures KeyLe(s[0], y) {
      var j :| 0 <= j < |s| && s[j] == y;
    }
  }

  /** An element below everything in `tail` and above `x` is below everything
      in a permutation of `tail` plus `x`. */
  lemma BelowInsertion(h: Format, x: Format, tail: seq<Format>, t: seq<Format>)
    requires !KeyLe(x, h)
    requires forall y :: y in tail ==> KeyLe(h, y)
    requires multiset(t) == multiset(tail) + multiset{x}
    ensures forall y :: y in t ==> KeyLe(h, y)
  {
    forall y | y in t ensures KeyLe(h, y) {
      assert y in multiset(t);
      if y != x {
        assert y in multiset(tail);
      }
    }
  }

  /** Insert `x` before the first element whose key is not below it, so that
      `x` stays ahead of later elements with an equal key. */
  function Insert(x: Format, s: seq<Format>): (r: seq<Format>)
    requires SortedByKey(s)
    ensures SortedByKey(r)
    ensures multiset(r) == multiset(s) + multiset{x}
  {
    if s == [] then [x]
    else
      SortedFirstIsLeast(s);
      if KeyLe(x, s[0]) then
        SortedCons(x, s);
        [x] + s
      else
        var tail := s[1..];
        assert s == [s[0]] + tail;
        var t := Insert(x, tail);
        BelowInsertion(s[0], x, tail, t);
        SortedCons(s[0], t);
        [s[0]] + t
  }

  /** The stable sort of the candidate list: insertion from the back keeps
      equal keys in their original order. */
  function SortFormats(s: seq<Format>): (r: seq<Format>)
    ensures SortedByKey(r)
    ensures multiset(r) == multiset(s)
  {
    if s == [] then []
    else
      assert s == [s[0]] + s[1..];
      Insert(s[0], SortFormats(s[1..]))
  }

  /** The head of a sorted permutation is a smallest element of the input. */
  lemma SortedHead(s: seq<Format>)
    requires s != []
    ensures SortFormats(s) != [] && SortFormats(s)[0] in s
    ensures forall y :: y in s ==> KeyLe(SortFormats(s)[0], y)
  {
    var r := SortFormats(s);
    assert |r| == |multiset(r)| == |multiset(s)| == |s|;
    assert r[0] in multiset(r);
    forall y | y in s ensures KeyLe(r[0], y) {
      assert y in multiset(s);
      assert y in multiset(r);
      var j :| 0 <= j < |r| && r[j] == y;
    }
  }

  // ---------------------------------------------------------------------------
  // The result

  predicate DistinctQualities(u: seq<Format>) {
    forall i, j :: 0 <= i < j < |u| ==> u[i].quality != u[j].quality
  }

  function QualitiesOf(u: seq<Format>): (q: set<Quality>)
    ensures forall x :: x in u ==> x.quality in q
    ensures forall l :: l in q ==> exists x :: x in u && x.quality == l
  {
    set x | x in u :: x.quality
  }

  /** Appending an element that is above every element keeps a list sorted. */
  lemma SortedSnoc(u: seq<Format>, f: Format)
    requires SortedByKey(u)
    requires forall x :: x in u ==> KeyLe(x, f)
    ensures SortedByKey(u + [f])
  {
    var v := u + [f];
    forall a, b | 0 <= a <= b < |v| ensures KeyLe(v[a], v[b]) {
      if b == |u| && a < |u| {
        assert v[a] in u;
      }
    }
  }

  /** The de-duplication loop from the point where `kept` has been kept and
      `rest` is still to be scanned: an entry is kept when its label is new,
      and the scan stops once eight entries are kept. */
  function KeepFrom(rest: seq<Format>, kept: seq<Format>): seq<Format>
    decreases |rest|
  {
    if rest == [] || |kept| >= MaxFormats then kept
    else if rest[0].quality in QualitiesOf(kept) then KeepFrom(rest[1..], kept)
    else KeepFrom(rest[1..], kept + [rest[0]])
  }

  /** The entries the de-duplication keeps of `s`. */
  function KeepDistinct(s: seq<Format>): seq<Format> {
    KeepFrom(s, [])
  }

  /** The scan only appends: it keeps at most eight entries with distinct
      labels, each already kept or taken from `rest`, and when it stops short
      of eight every label of `rest` is among the kept ones. */
  lemma {:induction false} KeepFromShape(rest: seq<Format>, kept: seq<Format>)
    requires |kept| <= MaxFormats && DistinctQualities(kept)
    ensures |kept| <= |KeepFrom(rest, kept)| <= MaxFormats
    ensures KeepFrom(rest, kept)[..|kept|] == kept
    ensures DistinctQualities(KeepFrom(rest, kept))
    ensures forall x :: x in KeepFrom(rest, kept) ==> x in kept || x in rest
    ensures |KeepFrom(rest, kept)| < MaxFormats ==>
              forall x :: x in rest ==> x.quality in QualitiesOf(KeepFrom(rest, kept))
    decreases |rest|
  {
    var r := KeepFrom(rest, kept);
    if rest != [] && |kept| < MaxFormats {
      var f := rest[0];
      assert rest == [f] + rest[1..];
      if f.quality in QualitiesOf(kept) {
        KeepFromShape(rest[1..], kept);
        forall x | x in kept ensures x.quality in QualitiesOf(r) {
          var k :| 0 <= k < |kept| && kept[k] == x;
          assert r[k] == x;
        }
      } else {
        var next := kept + [f];
        assert DistinctQualities(next) by {
          forall i, j | 0 <= i < j < |next| ensures next[i].quality != next[j].quality {
            if j == |kept| {
              assert next[i] in kept;
            }
          }
        }
        KeepFromShape(rest[1..], next);
        assert r[..|next|] == next;
        assert r[..|kept|] == next[..|kept|];
        assert r[|kept|] == f;
      }
    }
  }

  /** Scanning a sorted list whose entries are all above the kept ones keeps a
      sorted list. */
  lemma {:induction false} KeepFromSorted(rest: seq<Format>, kept: seq<Format>)
    requires SortedByKey(kept) && SortedByKey(rest)
    requires forall x, y :: x in kept && y in rest ==> KeyLe(x, y)
    ensures SortedByKey(KeepFrom(rest, kept))
    decreases |rest|
  {
    if rest != [] && |kept| < MaxFormats {
      var f := rest[0];
      assert SortedByKey(rest[1..]) by {
        forall i, j | 0 <= i <= j < |rest| - 1 ensures KeyLe(rest[1..][i], rest[1..][j]) {
          assert rest[1..][i] == rest[i + 1] && rest[1..][j] == rest[j + 1];
        }
      }
      if f.quality in QualitiesOf(kept) {
        KeepFromSorted(rest[1..], kept);
      } else {
        SortedSnoc(kept, f);
        forall x, y | x in kept + [f] && y in rest[1..] ensures KeyLe(x, y) {
          var j :| 0 <= j < |rest[1..]| && rest[1..][j] == y;
          assert rest[j + 1] == y;
        }
        KeepFromSorted(rest[1..], kept + [f]);
      }
    }
  }

  /** What the de-duplication keeps of a list: at most eight entries with
      distinct labels, taken from the list, the first entry always, every
      label of the list unless eight were kept, and sorted input stays sorted. */
  lemma KeepDistinctProperties(s: seq<Format>)
    ensures |KeepDistinct(s)| <= MaxFormats
    ensures DistinctQualities(KeepDistinct(s))
    ensures forall x :: x in KeepDistinct(s) ==> x in s
    ensures |KeepDistinct(s)| < MaxFormats ==> forall x :: x in s ==> x.quality in QualitiesOf(KeepDistinct(s))
    ensures s != [] ==> KeepDistinct(s) != [] && KeepDistinct(s)[0] == s[0]
    ensures SortedByKey(s) ==> SortedByKey(KeepDistinct(s))
  {
    KeepFromShape(s, []);
    if s != [] {
      KeepFromShape(s[1..], [s[0]]);
      assert s[0].quality !in QualitiesOf([]);
      assert [] + [s[0]] == [s[0]];
      assert KeepDistinct(s) == KeepFrom(s[1..], [s[0]]);
    }
    if SortedByKey(s) {
      KeepFromSorted(s, []);
    }
  }

  // ---------------------------------------------------------------------------
  // Which entries the de-duplication keeps

  /** `s[i]` is the first entry of `s` with its quality label. */
  predicate FirstWithLabel(s: seq<Format>, i: int) {
    0 <= i < |s| && forall j :: 0 <= j < i ==> s[j].quality != s[i].quality
  }

  /** The first entry of each quality label, in the order of `s`: the last
      entry is added when no earlier entry carries its label. */
  function FirstOfEachLabel(s: seq<Format>): seq<Format>
    decreases |s|
  {
    if s == [] then []
    else
      var init := s[..|s| - 1];
      var f := s[|s| - 1];
      FirstOfEachLabel(init) + (if f.quality in QualitiesOf(init) then [] else [f])
  }

  /** At most the first eight entries of `t`. */
  function AtMostEight(t: seq<Format>): (r: seq<Format>)
    ensures r <= t && |r| == if |t| <= MaxFormats then |t| else MaxFormats
  {
    if |t| <= MaxFormats then t else t[..MaxFormats]
  }

  lemma QualitiesOfSnoc(u: seq<Format>, f: Format)
    ensures QualitiesOf(u + [f]) == QualitiesOf(u) + {f.quality}
  {
    forall l | l in QualitiesOf(u + [f]) ensures l in QualitiesOf(u) + {f.quality} {
      var x :| x in u + [f] && x.quality == l;
      if x != f {
        assert x in u;
      }
    }
  }

  /** `FirstOfEachLabel` reads one more entry at the back. */
  lemma FirstOfEachLabelSnoc(init: seq<Format>, f: Format)
    ensures FirstOfEachLabel(init + [f])
            == FirstOfEachLabel(init) + (if f.quality in QualitiesOf(init) then [] else [f])
  {
    var s := init + [f];
    assert s[..|s| - 1] == init;
  }

  /** Every quality label of `s` is that of one of its first entries. */
  lemma {:induction false} FirstOfEachLabelQualities(s: seq<Format>)
    ensures QualitiesOf(FirstOfEachLabel(s)) == QualitiesOf(s)
    decreases |s|
  {
    if s != [] {
      var init := s[..|s| - 1];
      var f := s[|s| - 1];
      assert s == init + [f];
      FirstOfEachLabelQualities(init);
      FirstOfEachLabelSnoc(init, f);
      QualitiesOfSnoc(init, f);
      var fi := FirstOfEachLabel(init);
      if f.quality !in QualitiesOf(init) {
        QualitiesOfSnoc(fi, f);
      } else {
        assert fi + [] == fi;
      }
    }
  }

  /** The first entries of each label carry distinct labels. */
  lemma {:induction false} FirstOfEachLabelDistinct(s: seq<Format>)
    ensures DistinctQualities(FirstOfEachLabel(s))
    decreases |s|
  {
    if s != [] {
      var init := s[..|s| - 1];
      var f := s[|s| - 1];
      assert s == init + [f];
      FirstOfEachLabelDistinct(init);
      FirstOfEachLabelQualities(init);
      FirstOfEachLabelSnoc(init, f);
      var fi := FirstOfEachLabel(init);
      if f.quality !in QualitiesOf(init) {
        var r := fi + [f];
        forall i, j | 0 <= i < j < |r| ensures r[i].quality != r[j].quality {
          if j == |fi| {
            assert r[i] in fi;
          } else {
            assert r[i] == fi[i] && r[j] == fi[j];
          }
        }
      } else {
        assert fi + [] == fi;
      }
    }
  }

  /** Each of the first entries is the first entry of `s` with its label. */
  lemma {:induction false} FirstOfEachLabelAreFirst(s: seq<Format>)
    ensures forall x :: x in FirstOfEachLabel(s) ==> exists i :: FirstWithLabel(s, i) && s[i] == x
    decreases |s|
  {
    if s != [] {
      var init := s[..|s| - 1];
      var f := s[|s| - 1];
      assert s == init + [f];
      FirstOfEachLabelAreFirst(init);
      FirstOfEachLabelSnoc(init, f);
      var fi := FirstOfEachLabel(init);
      forall x | x in FirstOfEachLabel(s) ensures exists i :: FirstWithLabel(s, i) && s[i] == x {
        if x in fi {
          var i :| FirstWithLabel(init, i) && init[i] == x;
          FirstWithLabelExtends(init, f, i);
        } else {
          assert x == f && f.quality !in QualitiesOf(init);
          FirstWithLabelLast(init, f);
        }
      }
    }
  }

  /** A first entry stays first when an entry is appended. */
  lemma FirstWithLabelExtends(init: seq<Format>, f: Format, i: int)
    requires FirstWithLabel(init, i)
    ensures FirstWithLabel(init + [f], i) && (init + [f])[i] == init[i]
  {
    var s := init + [f];
    forall j | 0 <= j < i ensures s[j].quality != s[i].quality {
      assert s[j] == init[j];
    }
  }

  /** An appended entry with a new label is the first with that label. */
  lemma FirstWithLabelLast(init: seq<Format>, f: Format)
    requires f.quality !in QualitiesOf(init)
    ensures FirstWithLabel(init + [f], |init|) && (init + [f])[|init|] == f
  {
    var s := init + [f];
    forall j | 0 <= j < |init| ensures s[j].quality != f.quality {
      assert s[j] in init;
    }
  }

  /** The entries of `FirstOfEachLabel(t)` come from `t`. */
  lemma FirstOfEachLabelWithin(t: seq<Format>)
    ensures forall x :: x in FirstOfEachLabel(t) ==> x in t
  {
    FirstOfEachLabelAreFirst(t);
  }

  /** Scanning further only appends first entries. */
  lemma {:induction false} FirstOfEachLabelPrefix(a: seq<Format>, b: seq<Format>)
    ensures FirstOfEachLabel(a) <= FirstOfEachLabel(a + b)
    decreases |b|
  {
    if b == [] {
      assert a + b == a;
    } else {
      var b' := b[..|b| - 1];
      var l := b[|b| - 1];
      FirstOfEachLabelPrefix(a, b');
      assert a + b == (a + b') + [l];
      FirstOfEachLabelSnoc(a + b', l);
      var x := FirstOfEachLabel(a);
      var y := FirstOfEachLabel(a + b');
      var z := FirstOfEachLabel(a + b);
      assert z[..|y|] == y;
      assert z[..|x|] == y[..|x|];
    }
  }

  /** With `FirstOfEachLabel(p)` kept and fewer than eight of them, the scan of
      `rest` keeps the first eight first entries of `p + rest`. */
  lemma {:induction false} KeepFromFirsts(p: seq<Format>, rest: seq<Format>)
    requires |FirstOfEachLabel(p)| < MaxFormats
    ensures KeepFrom(rest, FirstOfEachLabel(p)) == AtMostEight(FirstOfEachLabel(p + rest))
    decreases |rest|
  {
    if rest == [] {
      assert p + rest == p;
    } else {
      var p' := p + [rest[0]];
      var tail := rest[1..];
      assert p' + tail == p + rest;
      KeepFromFirstsStep(p, rest);
      if |FirstOfEachLabel(p')| < MaxFormats {
        KeepFromFirsts(p', tail);
      } else {
        KeepFromSaturated(p', tail);
      }
    }
  }

  /** Once eight first entries are kept, the scan stops with them, and they are
      the first eight first entries of the whole list. */
  lemma KeepFromSaturated(q: seq<Format>, tail: seq<Format>)
    requires |FirstOfEachLabel(q)| == MaxFormats
    ensures KeepFrom(tail, FirstOfEachLabel(q)) == AtMostEight(FirstOfEachLabel(q + tail))
  {
    FirstOfEachLabelPrefix(q, tail);
  }

  /** One step of the scan over `rest`, kept entries being the first entries of `p`. */
  lemma KeepFromFirstsStep(p: seq<Format>, rest: seq<Format>)
    requires rest != [] && |FirstOfEachLabel(p)| < MaxFormats
    ensures KeepFrom(rest, FirstOfEachLabel(p)) == KeepFrom(rest[1..], FirstOfEachLabel(p + [rest[0]]))
    ensures |FirstOfEachLabel(p + [rest[0]])| <= |FirstOfEachLabel(p)| + 1
  {
    var f := rest[0];
    FirstOfEachLabelSnoc(p, f);
    FirstOfEachLabelQualities(p);
    var fp := FirstOfEachLabel(p);
    if f.quality in QualitiesOf(fp) {
      assert fp + [] == fp;
    }
  }

  /** The de-duplication keeps the first entry of each quality label, the
      first eight of them. */
  lemma KeepDistinctIsFirsts(s: seq<Format>)
    ensures KeepDistinct(s) == AtMostEight(FirstOfEachLabel(s))
  {
    assert [] + s == s;
    KeepFromFirsts([], s);
  }

  /** No entry before the first one with a label carries that label. */
  lemma FirstLabelNotBefore(s: seq<Format>, i: nat)
    requires FirstWithLabel(s, i)
    ensures s[i].quality !in QualitiesOf(s[..i])
  {
    var a := s[..i];
    forall x | x in a ensures x.quality != s[i].quality {
      var k :| 0 <= k < i && a[k] == x;
    }
  }

  /** The first entry of a label is among the first eight first entries when
      fewer than eight first entries come before it. */
  lemma FirstEntryKept(s: seq<Format>, i: nat)
    requires FirstWithLabel(s, i)
    ensures |FirstOfEachLabel(s[..i])| < MaxFormats ==> s[i] in AtMostEight(FirstOfEachLabel(s))
  {
    var a := s[..i];
    var fa := FirstOfEachLabel(a);
    FirstLabelNotBefore(s, i);
    assert s[..i + 1] == a + [s[i]];
    FirstOfEachLabelSnoc(a, s[i]);
    assert s[..i + 1] + s[i + 1..] == s;
    FirstOfEachLabelPrefix(s[..i + 1], s[i + 1..]);
    var t := FirstOfEachLabel(s);
    assert t[|fa|] == s[i];
    assert |fa| < MaxFormats ==> AtMostEight(t)[|fa|] == t[|fa|];
  }

  /** The first entry with a label that was not kept lies after every kept
      entry, and eight entries were kept. */
  lemma FirstNotKeptLiesAfter(s: seq<Format>, i: nat)
    requires FirstWithLabel(s, i) && s[i] !in AtMostEight(FirstOfEachLabel(s))
    ensures |AtMostEight(FirstOfEachLabel(s))| == MaxFormats
    ensures forall x :: x in AtMostEight(FirstOfEachLabel(s)) ==> x in s[..i]
  {
    FirstEntryKept(s, i);
    var a := s[..i];
    assert a + s[i..] == s;
    FirstOfEachLabelPrefix(a, s[i..]);
    FirstOfEachLabelWithin(a);
    EightFromPrefix(FirstOfEachLabel(a), FirstOfEachLabel(s));
  }

  /** When a prefix of `t` already has eight entries, the first eight of `t`
      are entries of that prefix. */
  lemma EightFromPrefix(fa: seq<Format>, t: seq<Format>)
    requires fa <= t && |fa| >= MaxFormats
    ensures |AtMostEight(t)| == MaxFormats
    ensures forall x :: x in AtMostEight(t) ==> x in fa
  {
    var u := AtMostEight(t);
    forall x | x in u ensures x in fa {
      var k :| 0 <= k < |u| && u[k] == x;
      assert fa[k] == x;
    }
  }

  /** An entry whose label was not kept lies after every kept entry, and
      eight entries were kept. */
  lemma {:induction false} NotKeptLiesAfter(s: seq<Format>, i: nat)
    requires i < |s| && s[i].quality !in QualitiesOf(KeepDistinct(s))
    ensures |KeepDistinct(s)| == MaxFormats && forall x :: x in KeepDistinct(s) ==> x in s[..i]
    decreases i
  {
    if FirstWithLabel(s, i) {
      KeepDistinctIsFirsts(s);
      FirstNotKeptLiesAfter(s, i);
    } else {
      var j :| 0 <= j < i && s[j].quality == s[i].quality;
      NotKeptLiesAfter(s, j);
      forall x | x in KeepDistinct(s) ensures x in s[..i] {
        var k :| 0 <= k < j && s[..j][k] == x;
        assert s[..i][k] == x;
      }
    }
  }

  /** Which entries the de-duplication keeps: each is the first entry of `s`
      with its label, and an entry whose label is missing comes after all
      eight kept ones. */
  lemma KeepDistinctChoosesFirsts(s: seq<Format>)
    ensures forall x :: x in KeepDistinct(s) ==> exists i :: FirstWithLabel(s, i) && s[i] == x
    ensures forall i :: 0 <= i < |s| && s[i].quality !in QualitiesOf(KeepDistinct(s)) ==>
              |KeepDistinct(s)| == MaxFormats && forall x :: x in KeepDistinct(s) ==> x in s[..i]
  {
    KeepDistinctIsFirsts(s);
    FirstOfEachLabelAreFirst(s);
    forall x | x in KeepDistinct(s) ensures x in FirstOfEachLabel(s) {
      var k :| 0 <= k < |KeepDistinct(s)| && KeepDistinct(s)[k] == x;
      assert FirstOfEachLabel(s)[k] == x;
    }
    forall i | 0 <= i < |s| && s[i].quality !in QualitiesOf(KeepDistinct(s))
      ensures |KeepDistinct(s)| == MaxFormats && forall x :: x in KeepDistinct(s) ==> x in s[..i]
    {
      NotKeptLiesAfter(s, i);
    }
  }

  /** The de-duplication loop: keep the first entry of each quality label,
      stopping once eight are kept. */
  method KeepDistinctQualities(s: seq<Format>) returns (u: seq<Format>)
    ensures u == KeepDistinct(s)
  {
    var seen: set<Quality> := {};
    u := [];
    var i := 0;
    while i < |s|
      invariant 0 <= i <= |s|
      invariant |u| < MaxFormats
      invariant seen == QualitiesOf(u)
      invariant KeepFrom(s[i..], u) == KeepDistinct(s)
    {
      var f := s[i];
      assert s[i..] == [f] + s[i + 1..];
      if f.quality !in seen {
        u := u + [f];
        seen := seen + {f.quality};
        if |u| >= MaxFormats {
          break;
        }
      }
      i := i + 1;
    }
  }
}

=== FILE: format_planner.dfy ===
/** The format-strategy choice of the background download job: the format
    descriptor the user picked becomes the selector handed to the fetcher. */
module FormatPlanner {
  import opened Text
  import opened Wrappers

  /** Which of the three branches produced the selector. */
  datatype Strategy = ManualPair | VideoPlusBestAudio | Direct

  datatype FetchPlan = FetchPlan(target: string, strategy: Strategy)

  /** `video_format, audio_format = format_id.split('+')` raises when the split
      does not give exactly two parts; `parts` is how many it gave. */
  datatype PlanError = TooManyValuesToUnpack(parts: nat)

  const BestAudioSuffix: string := "+bestaudio"

  predicate HasVideoOnlyMarker(d: string) {
    Contains(d, "Video Only") || Contains(d, "video_only")
  }

  /** Python `d.split()[0]`: the first maximal run of non-whitespace characters. */
  function FirstWord(d: string): string {
    TakeUntil(LStrip(d, IsSpace), IsSpace)
  }

  /** `format_id.split()[0] if ' ' in format_id else format_id`. */
  function VideoFormatId(d: string): string {
    if ' ' in d then FirstWord(d) else d
  }

  /** Lines 737-752 of the background job: a descriptor with a `+` is split and
      rejoined, a video-only descriptor is merged with the best audio stream, any
      other descriptor is used as it is. */
  function Plan(d: string): (r: Result<FetchPlan, PlanError>)
    ensures CountChar(d, '+') == 1 ==> r == Ok(FetchPlan(d, ManualPair))
    ensures CountChar(d, '+') >= 2 ==> r == Err(TooManyValuesToUnpack(CountChar(d, '+') + 1))
    ensures CountChar(d, '+') == 0 && HasVideoOnlyMarker(d) ==>
              r == Ok(FetchPlan(VideoFormatId(d) + BestAudioSuffix, VideoPlusBestAudio))
    ensures CountChar(d, '+') == 0 && !HasVideoOnlyMarker(d) ==> r == Ok(FetchPlan(d, Direct))
  {
    CountCharZeroIffAbsent(d, '+');
    if '+' in d then
      var parts := Split(d, '+');
      if |parts| == 2 then
        SplitJoinRoundTrip(d, '+');
        Ok(FetchPlan(parts[0] + "+" + parts[1], ManualPair))
      else
        Err(TooManyValuesToUnpack(|parts|))
    else if HasVideoOnlyMarker(d) then
      Ok(FetchPlan(VideoFormatId(d) + BestAudioSuffix, VideoPlusBestAudio))
    else
      Ok(FetchPlan(d, Direct))
  }

  // ---------------------------------------------------------------------------
  // Properties

  /** The first word of a descriptor is a piece of it, so it has no `+` when the
      descriptor has none. */
  lemma VideoFormatIdHasNoPlus(d: string)
    requires '+' !in d
    ensures '+' !in VideoFormatId(d)
  {
    if ' ' in d {
      var rest := LStrip(d, IsSpace);
      var w := TakeUntil(rest, IsSpace);
      assert w == rest[..|w|] && rest == d[|d| - |rest|..];
    }
  }

  /** Every selector the planner produces is a fixed point of the planner: planning
      it again yields the same selector. In particular the `<id>+bestaudio` selector
      has exactly one `+`. */
  lemma PlanTargetIsStable(d: string)
    requires Plan(d).Ok?
    ensures Plan(Plan(d).value.target).Ok?
    ensures Plan(Plan(d).value.target).value.target == Plan(d).value.target
  {
    CountCharZeroIffAbsent(d, '+');
    if CountChar(d, '+') == 0 && HasVideoOnlyMarker(d) {
      var w := VideoFormatId(d);
      VideoFormatIdHasNoPlus(d);
      CountCharZeroIffAbsent(w, '+');
      CountCharConcat(w, BestAudioSuffix, '+');
      assert CountChar(BestAudioSuffix, '+') == 1;
    }
  }
}

=== FILE: formats.dfy ===
/** The format list shown to the user: each raw format the extractor reports is
    classified as combined, video-only or audio-only, a best video+audio pair
    is added when there is no combined format, and the list is ordered, cleared
    of repeated quality labels and cut to eight entries. */
module Formats {
  import opened Wrappers
  import opened Text
  import opened Ranking
  import opened FormatPlanner
  import opened FormatList

  const MinVideoHeight: nat := 144

  /** A format as the extractor reports it. A key that is missing or null is
      `None` (or 0 for the numbers), except `formatNote`: a missing note is
      `Some("")` and `None` stands for a note that is present but null. */
  datatype RawFormat = RawFormat(
    formatId: Option<string>,
    ext: Option<string>,
    vcodec: Option<string>,
    acodec: Option<string>,
    height: nat,
    width: nat,
    formatNote: Option<string>,
    filesize: nat,
    filesizeApprox: nat,
    fps: real,
    abr: real)

  function ExtOf(f: RawFormat): string {
    if f.ext.Some? then f.ext.value else "mp4"
  }

  predicate IsImageExt(ext: string) {
    ext == "jpg" || ext == "png" || ext == "gif" || ext == "webp"
  }

  /** A codec field that names a real codec (present, non-empty, not `none`/`null`). */
  predicate HasCodec(c: Option<string>) {
    c.Some? && c.value != "" && c.value != "none" && c.value != "null"
  }

  /** The heights looked for in a format note, in the order they are tried. */
  const HeightProbes: seq<(string, nat)> :=
    [("1080", 1080), ("720", 720), ("480", 480), ("360", 360), ("240", 240)]

  /** The probe at index `k` is the first whose text occurs in the lower-cased note. */
  predicate FirstMatchingProbe(note: string, probes: seq<(string, nat)>, k: int) {
    && 0 <= k < |probes|
    && Contains(Lower(note), probes[k].0)
    && forall j :: 0 <= j < k ==> !Contains(Lower(note), probes[j].0)
  }

  /** The height of the first probe whose text occurs in the lower-cased note;
      0 when none occurs. */
  function ProbeHeight(note: string, probes: seq<(string, nat)>): (h: nat)
    ensures h == 0 || exists k :: 0 <= k < |probes| && probes[k].1 == h
    ensures (forall k :: 0 <= k < |probes| ==> !Contains(Lower(note), probes[k].0)) ==> h == 0
    ensures forall k :: FirstMatchingProbe(note, probes, k) ==> h == probes[k].1
  {
    if probes == [] then 0
    else if Contains(Lower(note), probes[0].0) then probes[0].1
    else
      var h := ProbeHeight(note, probes[1..]);
      assert h != 0 ==> exists k :: 0 <= k < |probes[1..]| && probes[1..][k].1 == h;
      assert forall k :: FirstMatchingProbe(note, probes, k) ==> FirstMatchingProbe(note, probes[1..], k - 1) by {
        forall k | FirstMatchingProbe(note, probes, k)
          ensures FirstMatchingProbe(note, probes[1..], k - 1)
        {
          assert k != 0;
          forall j | 0 <= j < k - 1 ensures !Contains(Lower(note), probes[1..][j].0) {
            assert probes[1..][j] == probes[j + 1];
          }
        }
      }
      h
  }

  /** The height read from a format note: 1080 when the note mentions `1080`,
      otherwise 720 when it mentions `720`, and so on down to 240; 0 when it
      mentions none of them. */
  function InferHeight(note: string): (h: nat)
    ensures h in {0, 240, 360, 480, 720, 1080}
    ensures var n := Lower(note);
      && (Contains(n, "1080") ==> h == 1080)
      && (!Contains(n, "1080") && Contains(n, "720") ==> h == 720)
      && (!Contains(n, "1080") && !Contains(n, "720") && Contains(n, "480") ==> h == 480)
      && (!Contains(n, "1080") && !Contains(n, "720") && !Contains(n, "480") && Contains(n, "360") ==> h == 360)
      && ((!Contains(n, "1080") && !Contains(n, "720") && !Contains(n, "480") && !Contains(n, "360"))
            ==> (h == 240 <==> Contains(n, "240")) && (h == 0 <==> !Contains(n, "240")))
  {
    var h := ProbeHeight(note, HeightProbes);
    assert HeightProbes[0].0 == "1080" && HeightProbes[1].0 == "720" && HeightProbes[2].0 == "480";
    assert HeightProbes[3].0 == "360" && HeightProbes[4].0 == "240";
    assert FirstMatchingProbe(note, HeightProbes, 0) || FirstMatchingProbe(note, HeightProbes, 1)
        || FirstMatchingProbe(note, HeightProbes, 2) || FirstMatchingProbe(note, HeightProbes, 3)
        || FirstMatchingProbe(note, HeightProbes, 4)
        || forall k :: 0 <= k < |HeightProbes| ==> !Contains(Lower(note), HeightProbes[k].0);
    h
  }

  /** The loop body of the classification for one raw format; `None` when the
      format is skipped (an image, an unusable codec combination, or a null
      format note that makes `lower()` raise). */
  function Classify(f: RawFormat): (r: Option<Format>)
    ensures r.Some? ==> r.value.kind != BestCombined
    ensures r.Some? && r.value.kind == VideoOnly ==> r.value.priority == 3
    ensures r.Some? && r.value.kind == AudioOnly ==> r.value.priority == 2
  {
    var ext := ExtOf(f);
    if IsImageExt(ext) then None
    else if f.height == 0 && f.formatNote.None? then None
    else
      var hasVideo := HasCodec(f.vcodec);
      var hasAudio := HasCodec(f.acodec);
      var height := if f.height == 0 then InferHeight(f.formatNote.value) else f.height;
      var size := if f.filesize > 0 then f.filesize else f.filesizeApprox;
      var id := if f.formatId.Some? then f.formatId.value else "unknown";
      if hasVideo && hasAudio && height >= MinVideoHeight then
        Some(Format(id, Sized(height, VideoAndAudio), ext, size, Combined, height, f.width,
                    f.fps, f.vcodec.value, f.acodec.value, f.abr, 1))
      else if hasVideo && !hasAudio && height >= MinVideoHeight then
        Some(Format(id, Sized(height, VideoOnlyTag), ext, size, VideoOnly, height, f.width,
                    f.fps, f.vcodec.value, "", 0.0, 3))
      else if hasAudio && !hasVideo then
        Some(Format(id, AudioOnlyLabel, if ext == "m4a" || ext == "mp3" then "mp3" else ext, size, AudioOnly,
                    0, 0, 0.0, "", f.acodec.value, f.abr, 2))
      else if !hasVideo && !hasAudio && (height > 0 || f.width > 0) then
        Some(Format(id, if height > 0 then Sized(height, NoTag) else VideoLabel, ext, size, Combined, height,
                    f.width, f.fps, "unknown", "unknown", f.abr, 2))
      else None
  }

  /** What one classification step promises: images are skipped; every entry
      keeps the raw id (or `unknown`); video-only entries are at least 144 high
      and carry a video codec only; audio-only entries carry an audio codec
      only and never keep the `m4a` extension; combined entries rank first
      exactly when they carry both codecs; and a format with a video codec and
      a known height is listed exactly when it is at least 144 high. */
  lemma ClassifyFacts(f: RawFormat)
    ensures IsImageExt(ExtOf(f)) ==> Classify(f).None?
    ensures Classify(f).Some? ==>
              Classify(f).value.formatId == (if f.formatId.Some? then f.formatId.value else "unknown")
    ensures Classify(f).Some? && Classify(f).value.kind == VideoOnly ==>
              Classify(f).value.height >= MinVideoHeight && HasCodec(f.vcodec) && !HasCodec(f.acodec)
    ensures Classify(f).Some? && Classify(f).value.kind == AudioOnly ==>
              Classify(f).value.quality == AudioOnlyLabel && Classify(f).value.ext != "m4a"
              && HasCodec(f.acodec) && !HasCodec(f.vcodec)
    ensures Classify(f).Some? && Classify(f).value.kind == Combined ==>
              (Classify(f).value.priority == 1 <==> HasCodec(f.vcodec) && HasCodec(f.acodec))
              && (Classify(f).value.priority == 1 || Classify(f).value.priority == 2)
              && (Classify(f).value.priority == 1 ==> Classify(f).value.height >= MinVideoHeight)
    ensures HasCodec(f.vcodec) && f.height > 0 && !IsImageExt(ExtOf(f)) ==>
              (Classify(f).Some? <==> f.height >= MinVideoHeight)
  {
  }

  // ---------------------------------------------------------------------------
  // The three lists built by the classification loop

  /** What the classification promises about every entry it produces. */
  predicate WellClassified(cs: seq<Format>) {
    forall x :: x in cs ==>
      && x.kind != BestCombined
      && (x.kind == VideoOnly ==> x.priority == 3)
      && (x.kind == AudioOnly ==> x.priority == 2)
  }

  /** The entries the classification loop produces, in input order. */
  function ClassifyAll(fs: seq<RawFormat>): (cs: seq<Format>)
    ensures WellClassified(cs)
  {
    if fs == [] then []
    else
      var c := Classify(fs[|fs| - 1]);
      ClassifyAll(fs[..|fs| - 1]) + (if c.Some? then [c.value] else [])
  }

  /** Every entry comes from a raw format, in particular not from an image. */
  lemma {:induction false} ClassifyAllOrigin(fs: seq<RawFormat>)
    ensures forall x :: x in ClassifyAll(fs) ==>
              exists i :: 0 <= i < |fs| && Classify(fs[i]) == Some(x) && !IsImageExt(ExtOf(fs[i]))
  {
    if fs != [] {
      var init := fs[..|fs| - 1];
      ClassifyAllOrigin(init);
      forall x | x in ClassifyAll(fs)
        ensures exists i :: 0 <= i < |fs| && Classify(fs[i]) == Some(x) && !IsImageExt(ExtOf(fs[i]))
      {
        if x in ClassifyAll(init) {
          var i :| 0 <= i < |init| && Classify(init[i]) == Some(x) && !IsImageExt(ExtOf(init[i]));
          assert fs[i] == init[i];
        } else {
          assert Classify(fs[|fs| - 1]) == Some(x);
        }
      }
    }
  }

  /** Every raw format that is not skipped contributes its entry, so nothing is
      classified only when every raw format is skipped. */
  lemma {:induction false} ClassifyAllComplete(fs: seq<RawFormat>)
    ensures forall i :: 0 <= i < |fs| && Classify(fs[i]).Some? ==> Classify(fs[i]).value in ClassifyAll(fs)
  {
    if fs != [] {
      var init := fs[..|fs| - 1];
      ClassifyAllComplete(init);
      forall i | 0 <= i < |fs| && Classify(fs[i]).Some?
        ensures Classify(fs[i]).value in ClassifyAll(fs)
      {
        if i < |init| {
          assert init[i] == fs[i];
        }
      }
    }
  }




  /** The entries of one kind, in order (`combined_formats`, `video_only_formats`,
      `audio_only_formats`). */
  function OfKind(cs: seq<Format>, k: Kind): (r: seq<Format>)
    ensures forall x :: x in r <==> x in cs && x.kind == k
  {
    if cs == [] then []
    else
      var last := cs[|cs| - 1];
      assert cs == cs[..|cs| - 1] + [last];
      OfKind(cs[..|cs| - 1], k) + (if last.kind == k then [last] else [])
  }

  /** The three lists are all empty exactly when nothing was classified. */
  lemma NothingClassified(cs: seq<Format>)
    requires WellClassified(cs)
    ensures OfKind(cs, Combined) == [] && OfKind(cs, VideoOnly) == [] && OfKind(cs, AudioOnly) == [] <==> cs == []
  {
    if cs != [] {
      assert cs[0] in cs;
      assert cs[0] in OfKind(cs, cs[0].kind);
    }
  }

  // ---------------------------------------------------------------------------
  // The synthesised best pair

  function Heights(fs: seq<Format>): (r: seq<real>)
    ensures |r| == |fs| && forall i :: 0 <= i < |fs| ==> r[i] == fs[i].height as real
  {
    if fs == [] then [] else [fs[0].height as real] + Heights(fs[1..])
  }

  function Abrs(fs: seq<Format>): (r: seq<real>)
    ensures |r| == |fs| && forall i :: 0 <= i < |fs| ==> r[i] == fs[i].abr
  {
    if fs == [] then [] else [fs[0].abr] + Abrs(fs[1..])
  }

  /** `max(video_only_formats, key=height)`: the first of the tallest. */
  function TallestIndex(videos: seq<Format>): (k: nat)
    requires videos != []
    ensures k < |videos|
    ensures forall j :: 0 <= j < |videos| ==> videos[j].height <= videos[k].height
    ensures forall j :: 0 <= j < k ==> videos[j].height < videos[k].height
  {
    ArgMaxFirst(Heights(videos))
  }

  /** `max(audio_only_formats, key=abr)`: the first of the richest. */
  function RichestIndex(audios: seq<Format>): (k: nat)
    requires audios != []
    ensures k < |audios|
    ensures forall j :: 0 <= j < |audios| ==> audios[j].abr <= audios[k].abr
    ensures forall j :: 0 <= j < k ==> audios[j].abr < audios[k].abr
  {
    ArgMaxFirst(Abrs(audios))
  }

  /** The `best_combined` entry built from the tallest video-only format and
      the richest audio-only format: its id is `<video id>+<audio id>`, its
      height and label come from the video, its bitrate from the audio, and
      its size is the sum of the two sizes only when both are known. */
  function BestPair(videos: seq<Format>, audios: seq<Format>): (p: Format)
    requires videos != [] && audios != []
    ensures p.kind == BestCombined && p.priority == 1 && p.ext == "mp4"
    ensures p.formatId == videos[TallestIndex(videos)].formatId + "+" + audios[RichestIndex(audios)].formatId
    ensures forall v :: v in videos ==> v.height <= p.height
    ensures forall a :: a in audios ==> a.abr <= p.abr
    ensures p.filesize > 0 ==> p.filesize == videos[TallestIndex(videos)].filesize + audios[RichestIndex(audios)].filesize
    ensures p.height == videos[TallestIndex(videos)].height && p.abr == audios[RichestIndex(audios)].abr
    ensures p.filesize == (if videos[TallestIndex(videos)].filesize > 0 && audios[RichestIndex(audios)].filesize > 0
                           then videos[TallestIndex(videos)].filesize + audios[RichestIndex(audios)].filesize else 0)
    ensures p.quality == (if videos[TallestIndex(videos)].height > 0
                          then Sized(videos[TallestIndex(videos)].height, BestQualityAndAudio) else BestQualityAndAudioLabel)
  {
    var v := videos[TallestIndex(videos)];
    var a := audios[RichestIndex(audios)];
    Format(v.formatId + "+" + a.formatId,
           if v.height > 0 then Sized(v.height, BestQualityAndAudio) else BestQualityAndAudioLabel,
           "mp4",
           if v.filesize > 0 && a.filesize > 0 then v.filesize + a.filesize else 0,
           BestCombined, v.height, v.width, v.fps, v.vcodec, a.acodec, a.abr, 1)
  }

  /** The pair is synthesised when there is no combined format but there are
      video-only and audio-only ones. */
  predicate NeedsPair(cs: seq<Format>) {
    OfKind(cs, Combined) == [] && OfKind(cs, VideoOnly) != [] && OfKind(cs, AudioOnly) != []
  }

  function Pair(cs: seq<Format>): Format
    requires NeedsPair(cs)
  {
    BestPair(OfKind(cs, VideoOnly), OfKind(cs, AudioOnly))
  }

  /** `combined_formats + video_only_formats + audio_only_formats` after the pair step. */
  function Candidates(cs: seq<Format>): seq<Format> {
    OfKind(cs, Combined) + (if NeedsPair(cs) then [Pair(cs)] else []) + OfKind(cs, VideoOnly) + OfKind(cs, AudioOnly)
  }

  /** The pair's id is accepted by the format planner as a manual pair, as it is,
      whenever neither source id contains a `+`. */
  lemma PairIdPlansAsManualPair(v: string, a: string)
    requires '+' !in v && '+' !in a
    ensures Plan(v + "+" + a) == Ok(FetchPlan(v + "+" + a, ManualPair))
  {
    CountCharZeroIffAbsent(v, '+');
    CountCharZeroIffAbsent(a, '+');
    CountCharConcat(v, "+", '+');
    CountCharConcat(v + "+", a, '+');
  }

  /** Every candidate is either a classified input or the pair, and the pair
      is there exactly when it is needed. */
  lemma CandidatesOrigin(cs: seq<Format>)
    requires WellClassified(cs)
    ensures forall x :: x in Candidates(cs) ==> x in cs || (NeedsPair(cs) && x == Pair(cs))
    ensures (exists x :: x in Candidates(cs) && x.kind == BestCombined) <==> NeedsPair(cs)
  {
    if NeedsPair(cs) {
      assert Pair(cs) in Candidates(cs);
    }
  }

  /** When the pair is synthesised it is the only priority-1 candidate, so it
      heads the sorted list. */
  lemma PairComesFirst(cs: seq<Format>)
    requires WellClassified(cs) && NeedsPair(cs)
    ensures SortFormats(Candidates(cs)) != [] && SortFormats(Candidates(cs))[0] == Pair(cs)
  {
    var c := Candidates(cs);
    var p := Pair(cs);
    var v := OfKind(cs, VideoOnly);
    var a := OfKind(cs, AudioOnly);
    assert c == [] + [p] + v + a;
    forall y | y in c && y != p ensures p.priority < y.priority {
      assert y in v || y in a;
    }
    LoneMinimumHeads(c, p);
  }

  /** An entry whose priority is below every other entry's heads the sorted list. */
  lemma LoneMinimumHeads(c: seq<Format>, p: Format)
    requires p in c && forall y :: y in c && y != p ==> p.priority < y.priority
    ensures SortFormats(c) != [] && SortFormats(c)[0] == p
  {
    SortedHead(c);
    assert KeyLe(SortFormats(c)[0], p);
  }


  lemma OfKindSnoc(cs: seq<Format>, c: Format, k: Kind)
    ensures OfKind(cs + [c], k) == OfKind(cs, k) + (if c.kind == k then [c] else [])
  {
    assert (cs + [c])[..|cs|] == cs;
  }

  /** The classification loop: every raw format that is not skipped is
      appended to the list of its kind. */
  method SplitByKind(formats: seq<RawFormat>) returns (combined: seq<Format>, videos: seq<Format>, audios: seq<Format>)
    ensures combined == OfKind(ClassifyAll(formats), Combined)
    ensures videos == OfKind(ClassifyAll(formats), VideoOnly)
    ensures audios == OfKind(ClassifyAll(formats), AudioOnly)
  {
    combined, videos, audios := [], [], [];
    var i := 0;
    while i < |formats|
      invariant 0 <= i <= |formats|
      invariant combined == OfKind(ClassifyAll(formats[..i]), Combined)
      invariant videos == OfKind(ClassifyAll(formats[..i]), VideoOnly)
      invariant audios == OfKind(ClassifyAll(formats[..i]), AudioOnly)
    {
      ghost var before := ClassifyAll(formats[..i]);
      assert formats[..i + 1][..i] == formats[..i];
      var c := Classify(formats[i]);
      if c.Some? {
        assert ClassifyAll(formats[..i + 1]) == before + [c.value];
        OfKindSnoc(before, c.value, Combined);
        OfKindSnoc(before, c.value, VideoOnly);
        OfKindSnoc(before, c.value, AudioOnly);
        match c.value.kind
        case Combined => combined := combined + [c.value];
        case VideoOnly => videos := videos + [c.value];
        case AudioOnly => audios := audios + [c.value];
      } else {
        assert ClassifyAll(formats[..i + 1]) == before;
      }
      i := i + 1;
    }
    assert formats[..i] == formats;
  }

  /** What the returned list promises about the classified entries `cs`: one
      to eight entries with distinct quality labels, in key order, each a
      classified entry or the synthesised pair; every candidate's label is
      represented unless the list was cut at eight; the pair heads the list
      exactly when it is needed; and the entries are the ones
      `ChosenFromSorted` describes for the sorted candidates. */
  predicate ListedFrom(cs: seq<Format>, u: seq<Format>) {
    && 1 <= |u| <= MaxFormats
    && DistinctQualities(u)
    && SortedByKey(u)
    && (forall x :: x in u ==> x in cs || (NeedsPair(cs) && x == Pair(cs)))
    && (|u| < MaxFormats ==> forall x :: x in Candidates(cs) ==> x.quality in QualitiesOf(u))
    && (u[0].kind == BestCombined <==> NeedsPair(cs))
    && (NeedsPair(cs) ==> u[0] == Pair(cs))
    && ChosenFromSorted(SortFormats(Candidates(cs)), u)
  }

  /** Which sorted entries the list keeps: it starts with the first of them;
      it is the first entry of each label in sorted order, cut at eight, so
      each entry is the first sorted entry with its label; and an entry whose
      label is missing comes after all eight. */
  predicate ChosenFromSorted(sorted: seq<Format>, u: seq<Format>) {
    && sorted != [] && u != [] && u[0] == sorted[0]
    && u == AtMostEight(FirstOfEachLabel(sorted))
    && (forall x :: x in u ==> exists i :: 0 <= i < |sorted| && FirstWithLabel(sorted, i) && sorted[i] == x)
    && (forall i :: 0 <= i < |sorted| && sorted[i].quality !in QualitiesOf(u) ==>
          |u| == MaxFormats && forall x :: x in u ==> x in sorted[..i])
  }

  /** The de-duplication of a non-empty list chooses its entries as
      `ChosenFromSorted` describes. */
  lemma KeepDistinctChosen(sorted: seq<Format>)
    requires sorted != []
    ensures ChosenFromSorted(sorted, KeepDistinct(sorted))
  {
    KeepDistinctProperties(sorted);
    KeepDistinctIsFirsts(sorted);
    KeepDistinctChoosesFirsts(sorted);
  }

  /** The pair step and the concatenation
      `combined_formats + video_only_formats + audio_only_formats`. */
  method JoinKinds(ghost cs: seq<Format>, combined: seq<Format>, videos: seq<Format>, audios: seq<Format>)
    returns (all: seq<Format>)
    requires combined == OfKind(cs, Combined) && videos == OfKind(cs, VideoOnly) && audios == OfKind(cs, AudioOnly)
    ensures all == Candidates(cs)
  {
    if combined == [] && videos != [] && audios != [] {
      all := combined + [BestPair(videos, audios)] + videos + audios;
    } else {
      all := combined + videos + audios;
    }
  }

  /** `process_formats_enhanced(formats)`: `None` when nothing is classified,
      otherwise a list as `ListedFrom` describes. */
  method ProcessFormatsEnhanced(formats: seq<RawFormat>) returns (r: Option<seq<Format>>)
    ensures r.None? <==> ClassifyAll(formats) == []
    ensures r.Some? ==> ListedFrom(ClassifyAll(formats), r.value)
  {
    var combined, videos, audios := SplitByKind(formats);
    ghost var cs := ClassifyAll(formats);
    var all := JoinKinds(cs, combined, videos, audios);
    if all == [] {
      NothingClassified(cs);
      return None;
    }
    NothingClassified(cs);
    var sorted := SortFormats(all);
    var unique := KeepDistinctQualities(sorted);
    SortedListProperties(cs);
    r := Some(unique);
  }

  /** The de-duplicated sorted candidate list is a list as `ListedFrom` describes. */
  lemma SortedListProperties(cs: seq<Format>)
    requires WellClassified(cs) && Candidates(cs) != []
    ensures ListedFrom(cs, KeepDistinct(SortFormats(Candidates(cs))))
  {
    var all := Candidates(cs);
    var sorted := SortFormats(all);
    var unique := KeepDistinct(sorted);
    SortedHead(all);
    KeepDistinctProperties(sorted);
    KeepDistinctChosen(sorted);
    forall x | x in sorted ensures x in all {
      assert x in multiset(sorted);
    }
    forall x | x in all && |unique| < MaxFormats ensures x.quality in QualitiesOf(unique) {
      assert x in multiset(all);
      assert x in multiset(sorted);
    }
    CandidatesOrigin(cs);
    if NeedsPair(cs) {
      PairComesFirst(cs);
    }
  }
}

=== FILE: progress_hook.dfy ===
/** The progress hook the fetcher calls while a job runs: debounced
    `downloading` updates capped at 99%, `finished` events that ignore the
    separate video and audio streams, and `error` events. */
module ProgressHook {
  import opened Wrappers
  import opened Text
  import opened JobRegistry

  const PercentThreshold: real := 1.0
  const TimeThreshold: real := 2.0
  const DownloadingCap: real := 99.0
  const UnknownError: string := "Unknown download error"

  /** One call of the hook. A `downloading` event carries the byte counts (a
      missing or null count is 0), the percent the fetcher reported (used only
      when no total is known), and the speed and ETA texts (empty when missing
      or null). An `error` event's text is `None` when the key is absent. */
  datatype HookEvent =
    | DownloadingEvent(downloaded: nat, totalBytes: nat, totalEstimate: nat, reportedPercent: real,
                       speed: string, eta: string)
    | FinishedEvent(path: string)
    | ErrorEvent(error: Option<string>)
    | OtherEvent

  /** The hook's own fields `last_percent` and `last_update`. */
  datatype HookState = HookState(lastPercent: real, lastUpdate: real)

  /** What one call does: the hook's new fields, the progress entry it writes
      (if any), the completion record it writes (if any), and whether it runs
      the intermediate-file cleanup. */
  datatype Reaction = Reaction(hook: HookState, write: Option<Entry>, complete: Option<Completion>, cleanup: bool)

  function Abs(x: real): real {
    if x < 0.0 then -x else x
  }

  /** `total_bytes or total_bytes_estimate or 0`. */
  function EventTotal(ev: HookEvent): nat
    requires ev.DownloadingEvent?
  {
    if ev.totalBytes > 0 then ev.totalBytes else ev.totalEstimate
  }

  /** The event's percent: the byte ratio when a total is known, otherwise the
      reported percent. */
  function EventPercent(ev: HookEvent): (p: real)
    requires ev.DownloadingEvent?
    ensures EventTotal(ev) > 0 ==> p * (EventTotal(ev) as real) == (ev.downloaded as real) * 100.0
    ensures EventTotal(ev) > 0 && ev.downloaded <= EventTotal(ev) ==> 0.0 <= p <= 100.0
  {
    var total := EventTotal(ev);
    if total > 0 then RatioPercent(ev.downloaded, total) else ev.reportedPercent
  }

  function RatioPercent(done: nat, total: nat): (p: real)
    requires total > 0
    ensures p * (total as real) == (done as real) * 100.0
    ensures done <= total ==> 0.0 <= p <= 100.0
  {
    var p := (done as real) / (total as real) * 100.0;
    assert p * (total as real) == (done as real) * 100.0;
    p
  }

  /** A larger byte count never gives a smaller percent of the same total. */
  lemma RatioPercentMonotone(d1: nat, d2: nat, total: nat)
    requires total > 0 && d1 <= d2
    ensures RatioPercent(d1, total) <= RatioPercent(d2, total)
  {
    var p1 := RatioPercent(d1, total);
    var p2 := RatioPercent(d2, total);
    var t := total as real;
    assert (p2 - p1) * t == (d2 - d1) as real * 100.0;
    if p2 < p1 {
      assert (p2 - p1) * t < 0.0;
    }
  }

  /** The debounce rule: a new entry is written only after a change of at
      least one point or at least two seconds since the last write. */
  predicate ShouldEmit(h: HookState, percent: real, now: real) {
    Abs(percent - h.lastPercent) >= PercentThreshold || now - h.lastUpdate >= TimeThreshold
  }

  /** `_speed_str or 'N/A'` and `_eta_str or 'N/A'`. */
  function OrNotAvailable(s: string): string {
    if s == [] then "N/A" else s
  }

  /** `os.path.basename(path)`: the part after the last `/`. */
  function Basename(path: string): (b: string)
    ensures '/' !in b && EndsWith(path, b)
    ensures '/' !in path ==> b == path
  {
    if path == [] then []
    else if path[|path| - 1] == '/' then []
    else
      var b := Basename(path[..|path| - 1]) + [path[|path| - 1]];
      assert path[|path| - |b|..] == path[..|path| - 1][|path| - |b|..] + [path[|path| - 1]];
      b
  }

  /** A separate video or audio stream the merger still has to combine: the
      name holds an `f` and `v.` or `a.`. */
  predicate IsIntermediateStream(name: string) {
    'f' in name && (Contains(name, "v.") || Contains(name, "a."))
  }

  function DownloadingEntry(ev: HookEvent, percent: real, now: real): Entry
    requires ev.DownloadingEvent?
  {
    Entry(Downloading, Min(percent, DownloadingCap), "Downloading...", Some(now),
          Some(OrNotAvailable(ev.speed)), Some(OrNotAvailable(ev.eta)),
          Some(ev.downloaded), Some(EventTotal(ev)), None, None, None)
  }

  /** One call of the hook on the state `h` at time `now`. */
  function React(h: HookState, ev: HookEvent, now: real): (r: Reaction)
    // downloading: debounced, capped at 99, remembers the uncapped percent
    ensures ev.DownloadingEvent? ==>
      && (r.write.Some? <==> ShouldEmit(h, EventPercent(ev), now))
      && (r.write.None? ==> r.hook == h)
      && (r.write.Some? ==> r.hook == HookState(EventPercent(ev), now)
                            && r.write.value.status == Downloading
                            && r.write.value.percent == Min(EventPercent(ev), DownloadingCap))
      && r.complete.None? && !r.cleanup
    ensures r.write.Some? && r.write.value.status == Downloading ==> r.write.value.percent <= DownloadingCap
    // finished: an intermediate stream changes nothing; the final file completes the job
    ensures ev.FinishedEvent? ==>
      && r.hook == h
      && (IsIntermediateStream(Basename(ev.path)) ==> r == Reaction(h, None, None, false))
      && (!IsIntermediateStream(Basename(ev.path)) ==>
            && r.write == Some(FinishedEntry(Basename(ev.path), ev.path, now))
            && r.complete == Some(Completion(Basename(ev.path), ev.path, now))
            && r.cleanup)
    // error: status error at 0%, with the event's text or a default
    ensures ev.ErrorEvent? ==>
      && r.hook == h && r.complete.None? && !r.cleanup
      && r.write.Some? && r.write.value.status == Error && r.write.value.percent == 0.0
      && r.write.value.error == Some(if ev.error.Some? then ev.error.value else UnknownError)
    ensures ev.OtherEvent? ==> r == Reaction(h, None, None, false)
    ensures r.write.Some? && r.write.value.status == Finished ==> r.write.value.percent == 100.0 && r.complete.Some?
  {
    match ev
    case DownloadingEvent(_, _, _, _, _, _) =>
      var percent := EventPercent(ev);
      if ShouldEmit(h, percent, now) then
        Reaction(HookState(percent, now), Some(DownloadingEntry(ev, percent, now)), None, false)
      else
        Reaction(h, None, None, false)
    case FinishedEvent(path) =>
      var name := Basename(path);
      if IsIntermediateStream(name) then Reaction(h, None, None, false)
      else Reaction(h, Some(FinishedEntry(name, path, now)), Some(Completion(name, path, now)), true)
    case ErrorEvent(error) =>
      var text := if error.Some? then error.value else UnknownError;
      Reaction(h, Some(ErrorEntry(text, FailedMessage, now)), None, false)
    case OtherEvent =>
      Reaction(h, None, None, false)
  }

  // ---------------------------------------------------------------------------
  // Streams of events

  /** An event and the time the hook sees it. */
  datatype Timed = Timed(event: HookEvent, at: real)

  /** The percents of the entries a stream of events writes, in order. */
  function Emitted(h: HookState, evs: seq<Timed>): seq<real>
    decreases |evs|
  {
    if evs == [] then []
    else
      var r := React(h, evs[0].event, evs[0].at);
      (if r.write.Some? then [r.write.value.percent] else []) + Emitted(r.hook, evs[1..])
  }

  predicate AllDownloading(evs: seq<Timed>) {
    forall k :: 0 <= k < |evs| ==> evs[k].event.DownloadingEvent?
  }

  /** A download whose byte count only grows against one fixed, known total. */
  predicate SteadyDownload(evs: seq<Timed>, total: nat) {
    && AllDownloading(evs)
    && (forall k :: 0 <= k < |evs| ==> EventTotal(evs[k].event) == total)
    && (forall k, l :: 0 <= k <= l < |evs| ==> evs[k].event.downloaded <= evs[l].event.downloaded)
  }

  /** Every percent a stream of downloading events writes is between
      `min(lo, 99)` and 99 when every event's percent is at least `lo`. */
  lemma {:induction false} EmittedWithin(h: HookState, evs: seq<Timed>, lo: real)
    requires AllDownloading(evs)
    requires forall k :: 0 <= k < |evs| ==> lo <= EventPercent(evs[k].event)
    ensures forall x :: x in Emitted(h, evs) ==> Min(lo, DownloadingCap) <= x <= DownloadingCap
    decreases |evs|
  {
    if evs != [] {
      var r := React(h, evs[0].event, evs[0].at);
      var tail := evs[1..];
      assert forall k :: 0 <= k < |tail| ==> tail[k] == evs[k + 1];
      EmittedWithin(r.hook, tail, lo);
      var rest := Emitted(r.hook, tail);
      if r.write.Some? {
        assert Emitted(h, evs) == [Min(EventPercent(evs[0].event), DownloadingCap)] + rest;
      } else {
        assert Emitted(h, evs) == rest;
      }
    }
  }

  predicate NonDecreasing(s: seq<real>) {
    forall i, j :: 0 <= i <= j < |s| ==> s[i] <= s[j]
  }

  /** The displayed progress of a steady download never goes backwards and
      never passes 99%: the written percents are non-decreasing and capped. */
  lemma {:induction false} EmittedNonDecreasing(h: HookState, evs: seq<Timed>, total: nat)
    requires total > 0 && SteadyDownload(evs, total)
    ensures forall x :: x in Emitted(h, evs) ==> x <= DownloadingCap
    ensures NonDecreasing(Emitted(h, evs))
    decreases |evs|
  {
    if evs != [] {
      var r := React(h, evs[0].event, evs[0].at);
      var tail := evs[1..];
      assert forall k :: 0 <= k < |tail| ==> tail[k] == evs[k + 1];
      EmittedNonDecreasing(r.hook, tail, total);
      var p0 := EventPercent(evs[0].event);
      forall k | 0 <= k < |tail|
        ensures p0 <= EventPercent(tail[k].event)
      {
        RatioPercentMonotone(evs[0].event.downloaded, tail[k].event.downloaded, total);
      }
      EmittedWithin(r.hook, tail, p0);
      var rest := Emitted(r.hook, tail);
      var e := Emitted(h, evs);
      if r.write.Some? {
        var m := Min(p0, DownloadingCap);
        assert e == [m] + rest;
        assert forall j :: 0 <= j < |rest| ==> m <= rest[j] by {
          forall j | 0 <= j < |rest| ensures m <= rest[j] {
            assert rest[j] in rest;
          }
        }
        forall i, j | 0 <= i <= j < |e|
          ensures e[i] <= e[j]
        {
          if i > 0 {
            assert e[i] == rest[i - 1] && e[j] == rest[j - 1];
          } else if j > 0 {
            assert e[j] == rest[j - 1];
          }
        }
      } else {
        assert e == rest;
      }
    }
  }

  /** There is no terminal-state guard: a downloading event that passes the
      debounce after the final `finished` event replaces the finished entry. */
  lemma FinishedCanBeOverwritten(h: HookState, path: string, t1: real, ev: HookEvent, t2: real)
    requires !IsIntermediateStream(Basename(path))
    requires ev.DownloadingEvent? && ShouldEmit(h, EventPercent(ev), t2)
    ensures React(h, FinishedEvent(path), t1).write.Some?
    ensures React(h, FinishedEvent(path), t1).write.value.status == Finished
    ensures var h1 := React(h, FinishedEvent(path), t1).hook;
      React(h1, ev, t2).write.Some? && React(h1, ev, t2).write.value.status == Downloading
  {
  }

  // ---------------------------------------------------------------------------
  // The hook object

  class OptimizedProgressHook {
    const downloadId: string
    const expectedFilename: string
    const baseName: string
    const registry: Registry
    const outputs: OutputDir
    var lastUpdate: real
    var lastPercent: real

    constructor (downloadId: string, expectedFilename: string, baseName: string,
                 registry: Registry, outputs: OutputDir, now: real)
      ensures this.downloadId == downloadId && this.expectedFilename == expectedFilename
      ensures this.baseName == baseName && this.registry == registry && this.outputs == outputs
      ensures lastUpdate == now && lastPercent == 0.0
    {
      this.downloadId := downloadId;
      this.expectedFilename := expectedFilename;
      this.baseName := baseName;
      this.registry := registry;
      this.outputs := outputs;
      lastUpdate := now;
      lastPercent := 0.0;
    }

    /** The hook's `__call__` for the event `ev` at time `now`; `failing` names
        the files whose removal raises during the cleanup. */
    method Call(ev: HookEvent, now: real, failing: set<string>)
      modifies this, registry, outputs
      ensures var r := React(HookState(old(lastPercent), old(lastUpdate)), ev, now);
        && HookState(lastPercent, lastUpdate) == r.hook
        && registry.progress == (if r.write.Some? then old(registry.progress)[downloadId := r.write.value]
                                 else old(registry.progress))
        && registry.completed == (if r.complete.Some? then old(registry.completed)[downloadId := r.complete.value]
                                  else old(registry.completed))
        && outputs.files == (if r.cleanup then Survivors(old(outputs.files), baseName, failing)
                             else old(outputs.files))
    {
      match ev
      case DownloadingEvent(_, _, _, _, _, _) =>
        var percent := EventPercent(ev);
        if Abs(percent - lastPercent) >= PercentThreshold || now - lastUpdate >= TimeThreshold {
          registry.Put(downloadId, DownloadingEntry(ev, percent, now));
          lastPercent := percent;
          lastUpdate := now;
        }
      case FinishedEvent(path) =>
        var name := Basename(path);
        if !IsIntermediateStream(name) {
          MarkCompleted(name, path, now, failing);
        }
      case ErrorEvent(error) =>
        var text := if error.Some? then error.value else UnknownError;
        registry.Put(downloadId, ErrorEntry(text, FailedMessage, now));
      case OtherEvent =>
    }

    /** `_mark_completed`: record the completion, mark the entry finished and
        clean up the job's intermediate files. */
    method MarkCompleted(filename: string, filepath: string, now: real, failing: set<string>)
      modifies registry, outputs
      ensures registry.completed == old(registry.completed)[downloadId := Completion(filename, filepath, now)]
      ensures registry.progress == old(registry.progress)[downloadId := FinishedEntry(filename, filepath, now)]
      ensures outputs.files == Survivors(old(outputs.files), baseName, failing)
    {
      registry.completed := registry.completed[downloadId := Completion(filename, filepath, now)];
      registry.progress := registry.progress[downloadId := FinishedEntry(filename, filepath, now)];
      outputs.CleanupIntermediateFiles(baseName, failing);
    }
  }
}

=== FILE: ranking.dfy ===
/** Python's `max(items, key=...)`, which the back end uses to pick the tallest
    video stream, the richest audio stream and the newest file. */
module Ranking {

  /** The index `max` returns: the first position holding the largest key
      (`max` only replaces its candidate on a strictly larger key). */
  function ArgMaxFirst(keys: seq<real>): (k: nat)
    requires |keys| > 0
    ensures k < |keys|
    ensures forall j :: 0 <= j < |keys| ==> keys[j] <= keys[k]
    ensures forall j :: 0 <= j < k ==> keys[j] < keys[k]
  {
    if |keys| == 1 then 0
    else
      var k := ArgMaxFirst(keys[..|keys| - 1]);
      if keys[|keys| - 1] > keys[k] then |keys| - 1 else k
  }
}

=== FILE: registry.dfy ===
/** The two in-memory registries of the download back end (`download_progress`
    and `completed_downloads`), the output directory the fetcher writes into,
    and the job steps and the staleness check that update them. The directory
    is an abstract listing; the clock is the parameter `now`. */
module JobRegistry {
  import opened Wrappers
  import opened Text
  import opened Ranking
  import opened SafeFilename
  import opened FormatPlanner

  // ---------------------------------------------------------------------------
  // Registry entries

  /** The `status` values a progress entry can hold. An id with no entry is
      reported as `not_found`, which the model shows as `None`. */
  datatype Status = Starting | Preparing | Downloading | Merging | Processing | Finished | Error

  /** A `download_progress` value. A key the source leaves out of the dict is `None`. */
  datatype Entry = Entry(
    status: Status,
    percent: real,
    message: string,
    lastUpdate: Option<real>,
    speed: Option<string>,
    eta: Option<string>,
    downloaded: Option<nat>,
    total: Option<nat>,
    filename: Option<string>,
    filepath: Option<string>,
    error: Option<string>)

  /** A `completed_downloads` value. */
  datatype Completion = Completion(filename: string, filepath: string, completedAt: real)

  /** One directory entry: its name, size in bytes, modification time and
      whether it is a regular file. */
  datatype DirFile = DirFile(name: string, size: nat, mtime: real, isFile: bool)

  const CompletedMessage: string := "Download completed!"
  const FailedMessage: string := "Download failed"
  const TimedOutMessage: string := "Download timed out"
  const TimeoutError: string := "Download timeout - please try again"
  const UnpackError: string := "too many values to unpack (expected 2)"

  /** An entry holding only status, percent, message and (optionally) the time. */
  function Plain(status: Status, percent: real, message: string, at: Option<real>): Entry {
    Entry(status, percent, message, at, None, None, None, None, None, None, None)
  }

  function FinishedEntry(filename: string, filepath: string, now: real): Entry {
    Entry(Finished, 100.0, CompletedMessage, Some(now), None, None, None, None,
          Some(filename), Some(filepath), None)
  }

  function ErrorEntry(error: string, message: string, now: real): Entry {
    Entry(Error, 0.0, message, Some(now), None, None, None, None, None, None, Some(error))
  }

  /** `os.path.join(dir, name)` for a plain file name. */
  function JoinPath(dir: string, name: string): string {
    dir + "/" + name
  }

  // ---------------------------------------------------------------------------
  // Intermediate-file cleanup

  /** The name filter of the cleanup: the name mentions the job's base name,
      contains an `f`, and contains one of `.f`, `.part`, `.ytdl`, `.tmp`. */
  predicate IsIntermediateName(name: string, base: string) {
    && Contains(name, base)
    && 'f' in name
    && (Contains(name, ".f") || Contains(name, ".part") || Contains(name, ".ytdl") || Contains(name, ".tmp"))
  }

  /** A listed file the cleanup deletes; a name in `failing` is one whose
      removal raises, which leaves the file in place. */
  predicate Removed(f: DirFile, base: string, failing: set<string>) {
    f.isFile && IsIntermediateName(f.name, base) && f.name !in failing
  }

  /** The listing after the cleanup, in the original order. */
  function Survivors(fs: seq<DirFile>, base: string, failing: set<string>): seq<DirFile> {
    if fs == [] then []
    else
      var last := fs[|fs| - 1];
      Survivors(fs[..|fs| - 1], base, failing) + (if Removed(last, base, failing) then [] else [last])
  }

  /** The cleanup removes exactly the intermediate files it can remove and
      leaves every other entry alone. */
  lemma {:induction false} SurvivorsExact(fs: seq<DirFile>, base: string, failing: set<string>, f: DirFile)
    ensures f in Survivors(fs, base, failing) <==> f in fs && !Removed(f, base, failing)
  {
    if fs != [] {
      SurvivorsExact(fs[..|fs| - 1], base, failing, f);
      assert fs == fs[..|fs| - 1] + [fs[|fs| - 1]];
    }
  }

  class OutputDir {
    var files: seq<DirFile>

    constructor (files: seq<DirFile>)
      ensures this.files == files
    {
      this.files := files;
    }

    /** `cleanup_intermediate_files(base_name)`: one pass over the listing that
        removes the intermediate files; a removal that fails is skipped and the
        pass goes on. */
    method CleanupIntermediateFiles(base: string, failing: set<string>)
      modifies this
      ensures files == Survivors(old(files), base, failing)
    {
      var listing := files;
      var kept: seq<DirFile> := [];
      var i := 0;
      while i < |listing|
        invariant 0 <= i <= |listing|
        invariant kept == Survivors(listing[..i], base, failing)
      {
        var f := listing[i];
        if !(f.isFile && IsIntermediateName(f.name, base) && f.name !in failing) {
          kept := kept + [f];
        }
        assert listing[..i + 1][..i] == listing[..i];
        i := i + 1;
      }
      assert listing[..i] == listing;
      files := kept;
    }
  }

  // ---------------------------------------------------------------------------
  // find_completed_file

  const RecentFileAge: real := 600.0

  /** Some entry called `name` has a positive size (`exists` and `getsize > 0`). */
  predicate HasNonEmpty(dir: seq<DirFile>, name: string) {
    exists i :: 0 <= i < |dir| && dir[i].name == name && dir[i].size > 0
  }

  /** A listed file the search accepts: a non-empty regular file younger than
      ten minutes, named `<base>.mp4`, `<base>.webm` or `<base>.mkv`, or an
      `.mp4` whose name mentions the base name. */
  predicate IsCompletedCandidate(f: DirFile, base: string, now: real) {
    && f.isFile && f.size > 0
    && now - f.mtime < RecentFileAge
    && (|| f.name == base + ".mp4" || f.name == base + ".webm" || f.name == base + ".mkv"
        || (Contains(f.name, base) && EndsWith(f.name, ".mp4")))
  }

  /** The first candidate in listing order. */
  function FirstCompleted(dir: seq<DirFile>, base: string, now: real): (r: Option<string>)
    ensures r.None? <==> forall i :: 0 <= i < |dir| ==> !IsCompletedCandidate(dir[i], base, now)
    ensures r.Some? ==> exists i :: 0 <= i < |dir| && dir[i].name == r.value && IsCompletedCandidate(dir[i], base, now)
                          && forall j :: 0 <= j < i ==> !IsCompletedCandidate(dir[j], base, now)
  {
    if dir == [] then None
    else if IsCompletedCandidate(dir[0], base, now) then Some(dir[0].name)
    else
      var r := FirstCompleted(dir[1..], base, now);
      assert forall i :: 1 <= i < |dir| ==> dir[i] == dir[1..][i - 1];
      r
  }

  /** `find_completed_file(expected, base)`: the expected name when it exists
      and is non-empty, otherwise the first candidate of the listing; `None`
      when there is none or when listing the directory raises. */
  method FindCompletedFile(expected: string, base: string, dir: seq<DirFile>, listingFails: bool, now: real)
    returns (r: Option<string>)
    ensures HasNonEmpty(dir, expected) ==> r == Some(expected)
    ensures !HasNonEmpty(dir, expected) && listingFails ==> r == None
    ensures !HasNonEmpty(dir, expected) && !listingFails ==> r == FirstCompleted(dir, base, now)
  {
    var i := 0;
    while i < |dir|
      invariant 0 <= i <= |dir|
      invariant forall j :: 0 <= j < i ==> !(dir[j].name == expected && dir[j].size > 0)
    {
      if dir[i].name == expected && dir[i].size > 0 {
        return Some(expected);
      }
      i := i + 1;
    }
    if listingFails {
      return None;
    }
    i := 0;
    while i < |dir|
      invariant 0 <= i <= |dir|
      invariant FirstCompleted(dir, base, now) == FirstCompleted(dir[i..], base, now)
    {
      var f := dir[i];
      if f.isFile && f.size > 0 {
        if f.name == base + ".mp4" || f.name == base + ".webm" || f.name == base + ".mkv" {
          if now - f.mtime < RecentFileAge {
            return Some(f.name);
          }
        }
        if Contains(f.name, base) && EndsWith(f.name, ".mp4") && now - f.mtime < RecentFileAge {
          return Some(f.name);
        }
      }
      assert dir[i..][1..] == dir[i + 1..];
      i := i + 1;
    }
    return None;
  }

  // ---------------------------------------------------------------------------
  // The staleness check of `get_progress`

  const StaleAfter: real := 120.0
  const RecentMp4Age: real := 180.0

  /** The statuses the staleness check looks at. */
  predicate IsActive(s: Status) {
    s == Downloading || s == Merging || s == Processing
  }

  /** `progress.get('last_update', 0)` is more than two minutes old. */
  predicate IsStale(e: Entry, now: real) {
    now - (if e.lastUpdate.Some? then e.lastUpdate.value else 0.0) > StaleAfter
  }

  /** The `.mp4` entries of a listing, in listing order. */
  function Mp4Files(dir: seq<DirFile>): (r: seq<DirFile>)
    ensures forall f :: f in r <==> f in dir && EndsWith(f.name, ".mp4")
  {
    if dir == [] then []
    else (if EndsWith(dir[0].name, ".mp4") then [dir[0]] else []) + Mp4Files(dir[1..])
  }

  function MTimes(fs: seq<DirFile>): (r: seq<real>)
    ensures |r| == |fs| && forall i :: 0 <= i < |fs| ==> r[i] == fs[i].mtime
  {
    if fs == [] then [] else [fs[0].mtime] + MTimes(fs[1..])
  }

  /** `max(files, key=getmtime)`: the first of the newest files. */
  function Newest(fs: seq<DirFile>): (f: DirFile)
    requires fs != []
    ensures f in fs
    ensures forall g :: g in fs ==> g.mtime <= f.mtime
    // the first of the newest files: every file before it is strictly older
    ensures exists k :: 0 <= k < |fs| && fs[k] == f && forall j :: 0 <= j < k ==> fs[j].mtime < f.mtime
  {
    var k := ArgMaxFirst(MTimes(fs));
    assert forall j :: 0 <= j < k ==> fs[j].mtime < fs[k].mtime;
    fs[k]
  }

  /** What one call of the check produces: the snapshot returned to the
      caller, the entry written back to `download_progress` (if any) and the
      record written to `completed_downloads` (if any). */
  datatype Healed = Healed(snapshot: Option<Entry>, write: Option<Entry>, record: Option<Completion>)

  /** The stale branch of `get_progress` for a snapshot `snap` (`None` when the
      id is unknown), the job's completion record `done`, and the output
      directory listing (`None` when listing it raises). */
  function Heal(snap: Option<Entry>, done: Option<Completion>, listing: Option<seq<DirFile>>,
                dir: string, now: real): (h: Healed)
    // only a stale downloading/merging/processing entry is looked at
    ensures !(snap.Some? && IsActive(snap.value.status) && IsStale(snap.value, now)) ==>
              h == Healed(snap, None, None)
    ensures snap.Some? && IsActive(snap.value.status) && IsStale(snap.value, now) ==>
      if done.Some? then
        // a completion record wins
        && h.write == Some(FinishedEntry(done.value.filename, done.value.filepath, now))
        && h.snapshot == h.write && h.record.None?
      else if listing.None? then
        h.write == Some(ErrorEntry(TimeoutError, TimedOutMessage, now)) && h.snapshot == h.write && h.record.None?
      else if Mp4Files(listing.value) == [] then
        // no .mp4 at all: returned as it was
        h == Healed(snap, None, None)
      else
        var f := Newest(Mp4Files(listing.value));
        if now - f.mtime < RecentMp4Age then
          && h.write == Some(FinishedEntry(f.name, JoinPath(dir, f.name), now)) && h.snapshot == h.write
          && h.record == Some(Completion(f.name, JoinPath(dir, f.name), now))
          && (forall g :: g in listing.value && EndsWith(g.name, ".mp4") ==> g.mtime <= f.mtime)
        else
          h.write == Some(ErrorEntry(TimeoutError, TimedOutMessage, now)) && h.snapshot == h.write && h.record.None?
  {
    if snap.None? || !IsActive(snap.value.status) || !IsStale(snap.value, now) then Healed(snap, None, None)
    else if done.Some? then
      var e := FinishedEntry(done.value.filename, done.value.filepath, now);
      Healed(Some(e), Some(e), None)
    else if listing.None? then
      var e := ErrorEntry(TimeoutError, TimedOutMessage, now);
      Healed(Some(e), Some(e), None)
    else
      var mp4s := Mp4Files(listing.value);
      if mp4s == [] then Healed(snap, None, None)
      else
        var f := Newest(mp4s);
        if now - f.mtime < RecentMp4Age then
          var path := JoinPath(dir, f.name);
          var e := FinishedEntry(f.name, path, now);
          Healed(Some(e), Some(e), Some(Completion(f.name, path, now)))
        else
          var e := ErrorEntry(TimeoutError, TimedOutMessage, now);
          Healed(Some(e), Some(e), None)
  }

  /** Whatever the check writes is terminal (finished or error) and stamped
      with `now`, so asking again at the same moment changes nothing. */
  lemma HealSettles(snap: Option<Entry>, done: Option<Completion>, listing: Option<seq<DirFile>>,
                    dir: string, now: real)
    ensures var h := Heal(snap, done, listing, dir, now);
      && (h.write.Some? ==> h.write.value.status in {Finished, Error} && h.write.value.lastUpdate == Some(now))
      && Heal(h.snapshot, done, listing, dir, now) == Healed(h.snapshot, None, None)
  {
  }

  /** A completion record is only ever written together with a finished entry
      for the same file. */
  lemma HealRecordMatchesEntry(snap: Option<Entry>, done: Option<Completion>, listing: Option<seq<DirFile>>,
                               dir: string, now: real)
    ensures var h := Heal(snap, done, listing, dir, now);
      h.record.Some? ==>
        && h.write.Some? && h.write.value.status == Finished
        && h.write.value.filename == Some(h.record.value.filename)
        && h.write.value.filepath == Some(h.record.value.filepath)
        && EndsWith(h.record.value.filename, ".mp4")
  {
    var h := Heal(snap, done, listing, dir, now);
    if h.record.Some? {
      var f := Newest(Mp4Files(listing.value));
      assert f in Mp4Files(listing.value);
    }
  }

  // ---------------------------------------------------------------------------
  // The registries and the job steps that write them

  /** The base name of a job's files: the resolver's name for the title, or
      the timestamped name when the lookup failed. */
  method ResolveBaseName(title: Option<string>, names: FilenameCache, t: nat) returns (base: string)
    requires names.Valid()
    modifies names
    ensures names.Valid()
    ensures title.None? ==> base == Fallback(t) && names.cache == old(names.cache)
    ensures title.Some? && !Blank(title.value) ==> title.value in names.cache && names.cache[title.value] == base
    ensures title.Some? && Blank(title.value) ==> base == Fallback(t) && names.cache == old(names.cache)
    ensures title.Some? && !Blank(title.value) && title.value in old(names.cache) ==>
              base == old(names.cache)[title.value] && names.cache == old(names.cache)
    ensures title.Some? && !Blank(title.value) && title.value !in old(names.cache) ==>
              base == SafeName(title.value, t) && names.cache == old(names.cache)[title.value := base]
    ensures IsFallbackName(base) || WellFormedName(base)
  {
    if title.Some? {
      base := names.GenerateSafeFilename(title.value, t);
    } else {
      base := Fallback(t);
      FallbackShape(t);
    }
  }

  /** What the background job settles on before handing over to the fetcher. */
  datatype Job = Job(baseName: string, expectedFilename: string, plan: FetchPlan)

  class Registry {
    var progress: map<string, Entry>
    var completed: map<string, Completion>
    const outputsDir: string

    constructor (outputsDir: string)
      ensures progress == map[] && completed == map[] && this.outputsDir == outputsDir
    {
      progress := map[];
      completed := map[];
      this.outputsDir := outputsDir;
    }

    /** The `/download` endpoint: a blank URL or an empty format is refused and
        nothing is registered; otherwise the fresh id `id` gets a `starting`
        entry and is returned. */
    method Submit(url: string, formatId: string, id: string) returns (r: Option<string>)
      modifies this
      ensures Strip(url, IsSpace) == [] || formatId == [] ==>
                r.None? && progress == old(progress)
      ensures Strip(url, IsSpace) != [] && formatId != [] ==>
                r == Some(id) && progress == old(progress)[id := Plain(Starting, 0.0, "Initializing...", None)]
      ensures completed == old(completed)
    {
      if Strip(url, IsSpace) == [] || formatId == [] {
        return None;
      }
      progress := progress[id := Plain(Starting, 0.0, "Initializing...", None)];
      r := Some(id);
    }

    /** The background job up to the hand-over to the fetcher: the entry goes
        to `starting`, the title becomes a base name (`None` stands for a
        failed information lookup or a null title, which take the timestamped
        name; a missing title arrives as `Some("facebook_video")`), the
        descriptor is planned, and the entry goes through `preparing` to
        `downloading` at 10%. A descriptor the planner rejects
        ends the job with an `error` entry at 0%. */
    method StartJob(id: string, formatId: string, title: Option<string>, names: FilenameCache, t: nat, now: real)
      returns (r: Result<Job, string>)
      requires names.Valid()
      modifies this, names
      ensures names.Valid()
      ensures title.None? ==> names.cache == old(names.cache)
      ensures r.Ok? ==> IsFallbackName(r.value.baseName) || WellFormedName(r.value.baseName)
      ensures r.Ok? ==> r.value.expectedFilename == r.value.baseName + ".mp4"
      ensures r.Ok? ==> title.None? ==> r.value.baseName == Fallback(t)
      ensures r.Ok? ==> title.Some? && !Blank(title.value) ==>
                title.value in names.cache && names.cache[title.value] == r.value.baseName
      ensures title.Some? && Blank(title.value) ==>
                names.cache == old(names.cache) && (r.Ok? ==> r.value.baseName == Fallback(t))
      ensures title.Some? && !Blank(title.value) && title.value in old(names.cache) ==>
                names.cache == old(names.cache) && (r.Ok? ==> r.value.baseName == old(names.cache)[title.value])
      ensures title.Some? && !Blank(title.value) && title.value !in old(names.cache) ==>
                names.cache == old(names.cache)[title.value := SafeName(title.value, t)]
                && (r.Ok? ==> r.value.baseName == SafeName(title.value, t))
      ensures Plan(formatId).Ok? <==> r.Ok?
      ensures r.Ok? ==> r.value.plan == Plan(formatId).value
                        && progress == old(progress)[id := Plain(Downloading, 10.0, "Starting download...", Some(now))]
      ensures r.Err? ==> r.error == "Unexpected error: " + UnpackError
                         && progress == old(progress)[id := ErrorEntry(r.error, FailedMessage, now)]
      ensures completed == old(completed)
    {
      Put(id, Plain(Starting, 0.0, "Getting video information...", Some(now)));
      ghost var started := progress;
      var base := ResolveBaseName(title, names, t);
      assert progress == started && completed == old(completed);
      var expected := base + ".mp4";
      var plan := Plan(formatId);
      if plan.Err? {
        var msg := "Unexpected error: " + UnpackError;
        Put(id, ErrorEntry(msg, FailedMessage, now));
        return Err(msg);
      }
      Put(id, Plain(Preparing, 5.0, "Preparing download...", Some(now)));
      Put(id, Plain(Downloading, 10.0, "Starting download...", Some(now)));
      r := Ok(Job(base, expected, plan.value));
    }

    /** One locked write of an id's progress entry. */
    method Put(id: string, e: Entry)
      modifies this
      ensures progress == old(progress)[id := e] && completed == old(completed)
    {
      progress := progress[id := e];
    }

    /** The job's handler for a fetcher failure carrying the text `message`. */
    method FetchFailed(id: string, message: string, now: real)
      modifies this
      ensures progress == old(progress)[id := ErrorEntry("Download failed: " + message, FailedMessage, now)]
      ensures completed == old(completed)
    {
      progress := progress[id := ErrorEntry("Download failed: " + message, FailedMessage, now)];
    }

    /** The check after the fetcher returns: when no progress event recorded a
        completion, the directory is searched; a file found is recorded as the
        job's result and the intermediate files are cleaned up. */
    method VerifyAfterFetch(id: string, job: Job, outputs: OutputDir, listingFails: bool,
                            failing: set<string>, now: real)
      modifies this, outputs
      ensures id in old(completed) ==>
                progress == old(progress) && completed == old(completed) && outputs.files == old(outputs.files)
      ensures id !in old(completed) ==>
        var found := if HasNonEmpty(old(outputs.files), job.expectedFilename) then Some(job.expectedFilename)
                     else if listingFails then None
                     else FirstCompleted(old(outputs.files), job.baseName, now);
        if found.None? then
          progress == old(progress) && completed == old(completed) && outputs.files == old(outputs.files)
        else
          var path := JoinPath(outputsDir, found.value);
          && completed == old(completed)[id := Completion(found.value, path, now)]
          && progress == old(progress)[id := FinishedEntry(found.value, path, now)]
          && outputs.files == Survivors(old(outputs.files), job.baseName, failing)
    {
      if id in completed {
        return;
      }
      var found := FindCompletedFile(job.expectedFilename, job.baseName, outputs.files, listingFails, now);
      if found.Some? {
        var path := JoinPath(outputsDir, found.value);
        completed := completed[id := Completion(found.value, path, now)];
        progress := progress[id := FinishedEntry(found.value, path, now)];
        outputs.CleanupIntermediateFiles(job.baseName, failing);
      }
    }

    /** The `/progress/<id>` endpoint: the entry's snapshot after the staleness
        check, which may also rewrite the registries. */
    method GetProgress(id: string, outputs: OutputDir, listingFails: bool, now: real) returns (snap: Option<Entry>)
      modifies this
      ensures var h := Heal(if id in old(progress) then Some(old(progress)[id]) else None,
                            if id in old(completed) then Some(old(completed)[id]) else None,
                            if listingFails then None else Some(outputs.files), outputsDir, now);
        && snap == h.snapshot
        && progress == (if h.write.Some? then old(progress)[id := h.write.value] else old(progress))
        && completed == (if h.record.Some? then old(completed)[id := h.record.value] else old(completed))
    {
      snap := if id in progress then Some(progress[id]) else None;
      if snap.None? || !IsActive(snap.value.status) || !IsStale(snap.value, now) {
        return;
      }
      if id in completed {
        var done := completed[id];
        var e := FinishedEntry(done.filename, done.filepath, now);
        progress := progress[id := e];
        return Some(e);
      }
      if listingFails {
        var e := ErrorEntry(TimeoutError, TimedOutMessage, now);
        progress := progress[id := e];
        return Some(e);
      }
      var mp4s := Mp4Files(outputs.files);
      if mp4s != [] {
        var latest := Newest(mp4s);
        if now - latest.mtime < RecentMp4Age {
          var path := JoinPath(outputsDir, latest.name);
          var e := FinishedEntry(latest.name, path, now);
          progress := progress[id := e];
          completed := completed[id := Completion(latest.name, path, now)];
          snap := Some(e);
        } else {
          var e := ErrorEntry(TimeoutError, TimedOutMessage, now);
          progress := progress[id := e];
          snap := Some(e);
        }
      }
    }
  }
}

=== FILE: safe_filename.dfy ===
/** The filename resolver of the download back end: a title string is cut down to a
    short, file-system-safe base name, and each title's result is memoised. */
module SafeFilename {
  import opened Text

  const MaxLength: nat := 40
  const MinLength: nat := 3
  const FallbackPrefix: string := "facebook_video_"

  /** The timestamped name used for blank titles and too-short results; `t` is
      `int(time.time())` at the moment of the call. */
  function Fallback(t: nat): string {
    FallbackPrefix + NatToString(t)
  }

  /** The shape of a fallback name: the prefix followed by a non-empty run of digits. */
  predicate IsFallbackName(s: string) {
    && |s| > |FallbackPrefix|
    && s[..|FallbackPrefix|] == FallbackPrefix
    && AllDigits(s[|FallbackPrefix|..])
  }

  lemma FallbackShape(t: nat)
    ensures IsFallbackName(Fallback(t))
  {
    NatToStringRoundTrip(t);
    assert Fallback(t)[..|FallbackPrefix|] == FallbackPrefix;
    assert Fallback(t)[|FallbackPrefix|..] == NatToString(t);
  }

  /** Python `not title or title.strip() == ''`. */
  predicate Blank(title: string) {
    Strip(title, IsSpace) == []
  }

  // ---------------------------------------------------------------------------
  // The cleaning steps of lines 90-103

  /** Characters kept by `re.sub(r'[^\w\s\-]', '', s)`. */
  predicate IsSafeChar(c: char) {
    IsWordChar(c) || IsSpace(c) || c == '-'
  }

  /** Characters matched by the class `[\s_]` whose runs become one `_`. */
  predicate IsRunChar(c: char) {
    IsSpace(c) || c == '_'
  }

  /** Characters removed by `strip('_-')` and `rstrip('_-')`. */
  predicate IsTrimChar(c: char) {
    c == '_' || c == '-'
  }

  predicate NoDoubleUnderscore(s: string) {
    forall i :: 0 <= i < |s| - 1 ==> !(s[i] == '_' && s[i + 1] == '_')
  }

  predicate OnlyNameChars(s: string) {
    forall i :: 0 <= i < |s| ==> IsWordChar(s[i]) || s[i] == '-'
  }

  /** `re.sub(r'[^\w\s\-]', '', s)`: drop every character outside the safe class. */
  function KeepSafe(s: string): (r: string)
    ensures forall i :: 0 <= i < |r| ==> IsSafeChar(r[i])
    ensures forall c :: c in r <==> c in s && IsSafeChar(c)
  {
    if s == [] then []
    else (if IsSafeChar(s[0]) then [s[0]] else []) + KeepSafe(s[1..])
  }

  /** The filter works piece by piece, so the safe characters keep their order. */
  lemma {:induction false} KeepSafeConcat(a: string, b: string)
    ensures KeepSafe(a + b) == KeepSafe(a) + KeepSafe(b)
  {
    if a == [] {
      assert a + b == b;
    } else {
      assert (a + b)[1..] == a[1..] + b;
      KeepSafeConcat(a[1..], b);
    }
  }

  /** The characters of `s` outside the runs of whitespace and underscores, in order. */
  function WordPart(s: string): string {
    if s == [] then [] else (if IsRunChar(s[0]) then [] else [s[0]]) + WordPart(s[1..])
  }

  /** Stripping leading run characters leaves the word part alone. */
  lemma {:induction false} WordPartSkipsRuns(t: string)
    ensures WordPart(LStrip(t, IsRunChar)) == WordPart(t)
  {
    if t != [] && IsRunChar(t[0]) {
      WordPartSkipsRuns(t[1..]);
    }
  }

  /** A non-empty run followed by the end or a non-run character is stripped whole. */
  lemma {:induction false} LStripWholeRun(run: string, t: string)
    requires forall i :: 0 <= i < |run| ==> IsRunChar(run[i])
    requires t == [] || !IsRunChar(t[0])
    ensures LStrip(run + t, IsRunChar) == t
  {
    if run == [] {
      assert run + t == t;
    } else {
      assert (run + t)[1..] == run[1..] + t;
      LStripWholeRun(run[1..], t);
    }
  }

  /** `re.sub(r'[\s_]+', '_', s)`: every maximal run of whitespace and underscores
      becomes a single underscore. The result has no whitespace and no `__`, and it
      starts with `_` exactly when `s` starts with a run character. */
  function Collapse(s: string): (r: string)
    ensures r == [] <==> s == []
    ensures r != [] ==> (r[0] == '_' <==> IsRunChar(s[0]))
    ensures NoDoubleUnderscore(r)
    ensures (forall i :: 0 <= i < |s| ==> IsSafeChar(s[i])) ==> OnlyNameChars(r)
    ensures WordPart(r) == WordPart(s)
    ensures forall i :: 0 <= i < |r| && IsRunChar(r[i]) ==> r[i] == '_'
    decreases |s|
  {
    if s == [] then []
    else if IsRunChar(s[0]) then
      var rest := LStrip(s[1..], IsRunChar);
      SafeSuffix(s, s[1..]);
      SafeSuffix(s[1..], rest);
      WordPartSkipsRuns(s[1..]);
      var c := Collapse(rest);
      PrependUnderscore(c);
      "_" + c
    else
      SafeSuffix(s, s[1..]);
      var c := Collapse(s[1..]);
      PrependWordChar(s[0], c);
      [s[0]] + c
  }

  /** A suffix of a text of safe characters is made of safe characters. */
  lemma SafeSuffix(s: string, t: string)
    requires |t| <= |s| && t == s[|s| - |t|..]
    ensures (forall i :: 0 <= i < |s| ==> IsSafeChar(s[i])) ==> forall i :: 0 <= i < |t| ==> IsSafeChar(t[i])
  {
    assert forall i :: 0 <= i < |t| ==> t[i] == s[|s| - |t| + i];
  }

  /** The run branch of `Collapse`: a `_` put before a collapsed text that does
      not start with `_`. */
  lemma PrependUnderscore(c: string)
    requires NoDoubleUnderscore(c) && (c == [] || c[0] != '_')
    requires forall i :: 0 <= i < |c| && IsRunChar(c[i]) ==> c[i] == '_'
    ensures NoDoubleUnderscore("_" + c)
    ensures OnlyNameChars(c) ==> OnlyNameChars("_" + c)
    ensures WordPart("_" + c) == WordPart(c)
    ensures forall i :: 0 <= i < |"_" + c| && IsRunChar(("_" + c)[i]) ==> ("_" + c)[i] == '_'
  {
    assert ("_" + c)[1..] == c;
  }

  /** The other branch of `Collapse`: a character outside the runs put before a
      collapsed text. */
  lemma PrependWordChar(x: char, c: string)
    requires !IsRunChar(x) && NoDoubleUnderscore(c)
    requires forall i :: 0 <= i < |c| && IsRunChar(c[i]) ==> c[i] == '_'
    ensures NoDoubleUnderscore([x] + c)
    ensures IsSafeChar(x) && OnlyNameChars(c) ==> OnlyNameChars([x] + c)
    ensures WordPart([x] + c) == [x] + WordPart(c)
    ensures forall i :: 0 <= i < |[x] + c| && IsRunChar(([x] + c)[i]) ==> ([x] + c)[i] == '_'
  {
    assert ([x] + c)[1..] == c;
  }

  /** A maximal run of whitespace and underscores becomes one `_`. */
  lemma CollapseRun(run: string, t: string)
    requires run != [] && forall i :: 0 <= i < |run| ==> IsRunChar(run[i])
    requires t == [] || !IsRunChar(t[0])
    ensures Collapse(run + t) == "_" + Collapse(t)
  {
    assert (run + t)[1..] == run[1..] + t;
    LStripWholeRun(run[1..], t);
  }

  /** Lines 90-99: strip, drop unsafe characters, collapse runs, trim `_`/`-`. */
  function Trimmed(title: string): string {
    Strip(Collapse(KeepSafe(Strip(title, IsSpace))), IsTrimChar)
  }

  /** Lines 101-103: cut to 40 characters and trim trailing `_`/`-` again. */
  function Truncated(s: string): string {
    if |s| > MaxLength then RStrip(s[..MaxLength], IsTrimChar) else s
  }

  /** Lines 90-103 without the minimum-length fallback. */
  function Clean(title: string): string {
    Truncated(Trimmed(title))
  }

  /** What `generate_safe_filename` computes for a title that is not in the cache. */
  function SafeName(title: string, t: nat): string {
    if Blank(title) then Fallback(t)
    else if |Clean(title)| < MinLength then Fallback(t)
    else Clean(title)
  }

  /** The shape the cleaning steps promise for a non-fallback name. */
  predicate WellFormedName(s: string) {
    && MinLength <= |s| <= MaxLength
    && OnlyNameChars(s)
    && (forall i :: 0 <= i < |s| ==> !IsSpace(s[i]))
    && NoDoubleUnderscore(s)
    && !IsTrimChar(s[0]) && !IsTrimChar(s[|s| - 1])
  }

  // ---------------------------------------------------------------------------
  // Properties

  /** Slicing keeps the character class and the absence of `__`. */
  lemma SliceKeepsShape(s: string, a: nat, b: nat)
    requires a <= b <= |s|
    requires OnlyNameChars(s) && NoDoubleUnderscore(s)
    ensures OnlyNameChars(s[a..b]) && NoDoubleUnderscore(s[a..b])
  {
    var m := s[a..b];
    forall i | 0 <= i < |m| - 1
      ensures !(m[i] == '_' && m[i + 1] == '_')
    {
      assert m[i] == s[a + i] && m[i + 1] == s[a + i + 1];
    }
  }

  /** Stripping `_`/`-` from both ends keeps the shape and leaves no `_`/`-` at either end. */
  lemma TrimKeepsShape(s: string)
    requires OnlyNameChars(s) && NoDoubleUnderscore(s)
    ensures var r := Strip(s, IsTrimChar);
      OnlyNameChars(r) && NoDoubleUnderscore(r) && (r != [] ==> !IsTrimChar(r[0]) && !IsTrimChar(r[|r| - 1]))
  {
    var left := LStrip(s, IsTrimChar);
    var r := RStrip(left, IsTrimChar);
    SuffixKeepsShape(s, left);
    PrefixKeepsShape(left, r);
    assert r != [] ==> r[0] == left[0];
  }

  /** A suffix keeps the character class and the absence of `__`. */
  lemma SuffixKeepsShape(s: string, t: string)
    requires |t| <= |s| && t == s[|s| - |t|..]
    requires OnlyNameChars(s) && NoDoubleUnderscore(s)
    ensures OnlyNameChars(t) && NoDoubleUnderscore(t)
  {
    SliceKeepsShape(s, |s| - |t|, |s|);
    assert s[|s| - |t|..|s|] == t;
  }

  /** A prefix keeps the character class and the absence of `__`. */
  lemma PrefixKeepsShape(s: string, t: string)
    requires |t| <= |s| && t == s[..|t|]
    requires OnlyNameChars(s) && NoDoubleUnderscore(s)
    ensures OnlyNameChars(t) && NoDoubleUnderscore(t)
  {
    SliceKeepsShape(s, 0, |t|);
    assert s[0..|t|] == t;
  }

  /** Cutting to 40 characters and stripping trailing `_`/`-` again keeps the shape,
      and the first character survives. */
  lemma TruncateKeepsShape(s: string)
    requires |s| > MaxLength
    requires OnlyNameChars(s) && NoDoubleUnderscore(s) && !IsTrimChar(s[0])
    ensures var r := RStrip(s[..MaxLength], IsTrimChar);
      OnlyNameChars(r) && NoDoubleUnderscore(r) && |r| <= MaxLength
      && r != [] && !IsTrimChar(r[0]) && !IsTrimChar(r[|r| - 1])
  {
    var r := RStrip(s[..MaxLength], IsTrimChar);
    SliceKeepsShape(s, 0, |r|);
    assert s[..MaxLength][..|r|] == s[..|r|];
    assert r != [];
    assert r[0] == s[0];
  }

  /** The trimmed form of a title: word characters and hyphens, no `__`, no
      `_`/`-` at either end. */
  lemma TrimmedShape(title: string)
    ensures var r := Trimmed(title);
      OnlyNameChars(r) && NoDoubleUnderscore(r) && (r != [] ==> !IsTrimChar(r[0]) && !IsTrimChar(r[|r| - 1]))
  {
    var collapsed := Collapse(KeepSafe(Strip(title, IsSpace)));
    assert OnlyNameChars(collapsed) && NoDoubleUnderscore(collapsed);
    TrimKeepsShape(collapsed);
  }

  /** Truncation keeps that shape and bounds the length by 40. */
  lemma TruncatedShape(s: string)
    requires OnlyNameChars(s) && NoDoubleUnderscore(s)
    requires s != [] ==> !IsTrimChar(s[0]) && !IsTrimChar(s[|s| - 1])
    ensures var r := Truncated(s);
      OnlyNameChars(r) && NoDoubleUnderscore(r) && |r| <= MaxLength
      && (r != [] ==> !IsTrimChar(r[0]) && !IsTrimChar(r[|r| - 1]))
  {
    if |s| > MaxLength {
      TruncateKeepsShape(s);
    }
  }

  /** A cleaned title that is long enough to be used is 3..40 characters of word
      characters and hyphens, with no whitespace, no `__` and no `_`/`-` at either end. */
  lemma CleanIsWellFormed(title: string)
    requires |Clean(title)| >= MinLength
    ensures WellFormedName(Clean(title))
  {
    TrimmedShape(title);
    TruncatedShape(Trimmed(title));
    NameCharsAreNotSpaces(Clean(title));
  }

  lemma NameCharsAreNotSpaces(s: string)
    requires OnlyNameChars(s)
    ensures forall i :: 0 <= i < |s| ==> !IsSpace(s[i])
  {
  }

  /** `generate_safe_filename` on a title not yet cached returns the
      `facebook_video_<t>` fallback, or a well-formed name; blank titles always
      get the fallback. */
  lemma SafeNameShape(title: string, t: nat)
    ensures Blank(title) ==> SafeName(title, t) == Fallback(t)
    ensures SafeName(title, t) == Fallback(t) || WellFormedName(SafeName(title, t))
  {
    if !Blank(title) && |Clean(title)| >= MinLength {
      CleanIsWellFormed(title);
    }
  }

  // ---------------------------------------------------------------------------
  // The memoising resolver (module-level `filename_cache`)

  /** What the cache may hold for a title: the title is not blank, and the
      name is its cleaned form, or a fallback name when that form was too short. */
  ghost predicate CachedName(title: string, name: string) {
    && !Blank(title)
    && (if |Clean(title)| >= MinLength then name == Clean(title) else IsFallbackName(name))
  }

  /** A name the cache may hold is a fallback name or a well-formed one. */
  lemma CachedNameShape(title: string, name: string)
    requires CachedName(title, name)
    ensures IsFallbackName(name) || WellFormedName(name)
  {
    if |Clean(title)| >= MinLength {
      CleanIsWellFormed(title);
    }
  }

  /** The name computed for a new title may be cached for it. */
  lemma SafeNameIsCachable(title: string, t: nat)
    requires !Blank(title)
    ensures CachedName(title, SafeName(title, t))
  {
    if |Clean(title)| < MinLength {
      FallbackShape(t);
    }
  }

  /** Every cached title maps to a name it may hold. */
  ghost predicate ValidCache(m: map<string, string>) {
    forall k :: k in m ==> CachedName(k, m[k])
  }

  lemma CacheInsertKeepsValid(m: map<string, string>, title: string, t: nat)
    requires ValidCache(m) && !Blank(title)
    ensures ValidCache(m[title := SafeName(title, t)])
  {
    SafeNameIsCachable(title, t);
  }

  class FilenameCache {
    var cache: map<string, string>

    ghost predicate Valid()
      reads this
    {
      ValidCache(cache)
    }

    constructor ()
      ensures Valid() && cache == map[]
    {
      cache := map[];
    }

    /** `generate_safe_filename(title)` at time `t`. */
    method GenerateSafeFilename(title: string, t: nat) returns (name: string)
      requires Valid()
      modifies this
      ensures Valid()
      ensures Blank(title) ==> name == Fallback(t) && cache == old(cache)
      ensures !Blank(title) && title in old(cache) ==> name == old(cache)[title] && cache == old(cache)
      ensures !Blank(title) && title !in old(cache) ==>
                name == SafeName(title, t) && cache == old(cache)[title := name]
      ensures !Blank(title) ==> title in cache && cache[title] == name
      ensures IsFallbackName(name) || WellFormedName(name)
    {
      if Blank(title) {
        name := Fallback(t);
        FallbackShape(t);
        return;
      }
      if title in cache {
        name := cache[title];
        CachedNameShape(title, name);
        return;
      }
      var safe := Clean(title);
      if |safe| < MinLength {
        safe := Fallback(t);
      }
      assert safe == SafeName(title, t);
      SafeNameIsCachable(title, t);
      CachedNameShape(title, safe);
      CacheInsertKeepsValid(cache, title, t);
      cache := cache[title := safe];
      name := safe;
    }
  }
}

=== FILE: text.dfy ===
/** String helpers shared by the server and client models: substring search,
    ASCII lower-casing, Python's character classes and decimal rendering. */
module Text {

  /** `p` occurs in `s` as a contiguous piece (Python `p in s`, JavaScript `s.includes(p)`). */
  predicate Contains(s: string, p: string) {
    exists i :: 0 <= i <= |s| - |p| && OccursAt(s, p, i)
  }

  /** `p` occurs in `s` starting at index `i`. */
  predicate OccursAt(s: string, p: string, i: int) {
    0 <= i && i + |p| <= |s| && s[i..i + |p|] == p
  }

  predicate StartsWith(s: string, p: string) {
    |p| <= |s| && s[..|p|] == p
  }

  lemma StartsWithConcat(a: string, b: string)
    ensures StartsWith(a + b, a)
  {
    assert (a + b)[..|a|] == a;
  }

  /** Both halves of a concatenation are pieces of it. */
  lemma ContainsParts(a: string, b: string)
    ensures Contains(a + b, a) && Contains(a + b, b)
  {
    ContainsAt(a + b, a, 0);
    assert (a + b)[|a|..|a| + |b|] == b;
    ContainsAt(a + b, b, |a|);
  }

  /** One differing character rules out a prefix. */
  lemma DifferAt(s: string, p: string, i: nat)
    requires i < |p| && i < |s| && s[i] != p[i]
    ensures !StartsWith(s, p)
  {
    if |p| <= |s| {
      assert s[..|p|][i] == s[i];
    }
  }

  predicate EndsWith(s: string, p: string) {
    |p| <= |s| && s[|s| - |p|..] == p
  }

  lemma ContainsAt(s: string, p: string, i: nat)
    requires i + |p| <= |s| && s[i..i + |p|] == p
    ensures Contains(s, p)
  {
    assert OccursAt(s, p, i);
  }

  /** Containment is transitive: a piece of a piece of `s` is a piece of `s`. */
  lemma ContainsTransitive(s: string, m: string, p: string)
    requires Contains(s, m) && Contains(m, p)
    ensures Contains(s, p)
  {
    var i :| 0 <= i <= |s| - |m| && OccursAt(s, m, i);
    var j :| 0 <= j <= |m| - |p| && OccursAt(m, p, j);
    assert i + j + |p| <= |s|;
    forall k | 0 <= k < |p|
      ensures s[i + j + k] == p[k]
    {
      assert p[k] == m[j + k] == s[i + j + k];
    }
    assert s[i + j..i + j + |p|] == p;
    ContainsAt(s, p, i + j);
  }

  /** A piece of `s` stays a piece of `a + s + b`. */
  lemma ContainsInContext(a: string, s: string, b: string, p: string)
    requires Contains(s, p)
    ensures Contains(a + s + b, p)
  {
    var i :| 0 <= i <= |s| - |p| && OccursAt(s, p, i);
    assert (a + s + b)[|a| + i..|a| + i + |p|] == s[i..i + |p|];
    ContainsAt(a + s + b, p, |a| + i);
  }

  // ---------------------------------------------------------------------------
  // Smaller and larger of two numbers (Python `min`/`max`, JavaScript `Math.min`/`Math.max`)

  function Min(x: real, y: real): (m: real)
    ensures m <= x && m <= y && (m == x || m == y)
  {
    if y < x then y else x
  }

  function Max(x: real, y: real): (m: real)
    ensures m >= x && m >= y && (m == x || m == y)
  {
    if y > x then y else x
  }

  // ---------------------------------------------------------------------------
  // Lower-casing (ASCII letters only)

  function LowerChar(c: char): char {
    if 'A' <= c <= 'Z' then (c as int + 32) as char else c
  }

  /** Python `str.lower()` / JavaScript `toLowerCase()`, restricted to ASCII letters. */
  function Lower(s: string): string {
    seq(|s|, i requires 0 <= i < |s| => LowerChar(s[i]))
  }

  predicate IsLowerCase(s: string) {
    forall i :: 0 <= i < |s| ==> LowerChar(s[i]) == s[i]
  }

  /** Lower-casing commutes with slicing. */
  lemma LowerSlice(s: string, i: nat, j: nat)
    requires i <= j <= |s|
    ensures Lower(s)[i..j] == Lower(s[i..j])
  {
  }

  /** Lower-casing twice is lower-casing once. */
  lemma LowerIdempotent(s: string)
    ensures Lower(Lower(s)) == Lower(s)
  {
  }

  /** A lower-case piece of `s` is also a piece of `Lower(s)`. */
  lemma ContainsLower(s: string, p: string)
    requires Contains(s, p) && IsLowerCase(p)
    ensures Contains(Lower(s), p)
  {
    var i :| 0 <= i <= |s| - |p| && OccursAt(s, p, i);
    LowerSlice(s, i, i + |p|);
    assert Lower(s)[i..i + |p|] == p;
    ContainsAt(Lower(s), p, i);
  }

  /** A piece of `s` lower-cases to a piece of `Lower(s)`. */
  lemma ContainsLowerOfPiece(s: string, p: string)
    requires Contains(s, p)
    ensures Contains(Lower(s), Lower(p))
  {
    var i :| 0 <= i <= |s| - |p| && OccursAt(s, p, i);
    LowerSlice(s, i, i + |p|);
    ContainsAt(Lower(s), Lower(p), i);
  }

  // ---------------------------------------------------------------------------
  // Character classes

  /** Python's `str.isspace()`, which is also what `\s` and `str.strip()` use. */
  predicate IsSpace(c: char) {
    var n := c as int;
    (9 <= n <= 13) || (28 <= n <= 32) || n == 0x85 || n == 0xA0 || n == 0x1680
    || (0x2000 <= n <= 0x200A) || n == 0x2028 || n == 0x2029 || n == 0x202F
    || n == 0x205F || n == 0x3000
  }

  predicate IsDigit(c: char) {
    '0' <= c <= '9'
  }

  /** Python's `\w`, restricted to ASCII: letters, digits and the underscore. */
  predicate IsWordChar(c: char) {
    ('a' <= c <= 'z') || ('A' <= c <= 'Z') || IsDigit(c) || c == '_'
  }

  predicate AllDigits(s: string) {
    forall i :: 0 <= i < |s| ==> IsDigit(s[i])
  }

  // ---------------------------------------------------------------------------
  // Stripping (Python `str.strip`, `lstrip`, `rstrip` with a character class)

  function LStrip(s: string, drop: char -> bool): (r: string)
    ensures |r| <= |s| && r == s[|s| - |r|..]
    ensures r != [] ==> !drop(r[0])
    ensures forall i :: 0 <= i < |s| - |r| ==> drop(s[i])
  {
    if s != [] && drop(s[0]) then
      var r := LStrip(s[1..], drop);
      TailSuffix(s, |r|);
      assert forall i :: 1 <= i < |s| ==> s[i] == s[1..][i - 1];
      r
    else s
  }

  /** A suffix of the tail of `s` is a suffix of `s`. */
  lemma TailSuffix(s: string, n: nat)
    requires n < |s|
    ensures s[1..][|s| - 1 - n..] == s[|s| - n..]
  {
  }

  function RStrip(s: string, drop: char -> bool): (r: string)
    ensures |r| <= |s| && r == s[..|r|]
    ensures r != [] ==> !drop(r[|r| - 1])
    ensures forall i :: |r| <= i < |s| ==> drop(s[i])
  {
    if s != [] && drop(s[|s| - 1]) then RStrip(s[..|s| - 1], drop) else s
  }

  function Strip(s: string, drop: char -> bool): string {
    RStrip(LStrip(s, drop), drop)
  }

  // ---------------------------------------------------------------------------
  // Decimal rendering of naturals (Python `str(n)`, JavaScript `n.toString()`)

  function DigitChar(d: nat): char
    requires d < 10
  {
    ('0' as int + d) as char
  }

  function NatToString(n: nat): string
    decreases n
  {
    if n < 10 then [DigitChar(n)] else NatToString(n / 10) + [DigitChar(n % 10)]
  }

  /** The value of a string of decimal digits. */
  function ParseDigits(s: string): nat
    requires AllDigits(s)
  {
    if s == [] then 0 else ParseDigits(s[..|s| - 1]) * 10 + (s[|s| - 1] as int - '0' as int)
  }

  /** Rendering a natural gives a non-empty digit string that reads back as the same number. */
  lemma {:induction false} NatToStringRoundTrip(n: nat)
    ensures |NatToString(n)| >= 1 && AllDigits(NatToString(n))
    ensures ParseDigits(NatToString(n)) == n
    decreases n
  {
    var s := NatToString(n);
    if n >= 10 {
      NatToStringRoundTrip(n / 10);
      assert s[..|s| - 1] == NatToString(n / 10);
    }
  }

  // ---------------------------------------------------------------------------
  // Splitting and joining on one character

  function CountChar(s: string, c: char): nat {
    if s == [] then 0 else (if s[0] == c then 1 else 0) + CountChar(s[1..], c)
  }

  /** Python `s.split(sep)` and JavaScript `s.split(sep)` for a one-character
      separator. */
  function Split(s: string, sep: char): (parts: seq<string>)
    ensures |parts| == CountChar(s, sep) + 1
    ensures forall k :: 0 <= k < |parts| ==> sep !in parts[k]
  {
    if s == [] then [[]]
    else
      var rest := Split(s[1..], sep);
      if s[0] == sep then [[]] + rest
      else [[s[0]] + rest[0]] + rest[1..]
  }

  /** Python `sep.join(parts)`. */
  function Join(parts: seq<string>, sep: char): string
    requires |parts| >= 1
  {
    if |parts| == 1 then parts[0] else parts[0] + [sep] + Join(parts[1..], sep)
  }

  /** The longest prefix of `s` with no character satisfying `stop`. */
  function TakeUntil(s: string, stop: char -> bool): (r: string)
    ensures |r| <= |s| && r == s[..|r|]
    ensures forall i :: 0 <= i < |r| ==> !stop(r[i])
  {
    if s == [] || stop(s[0]) then [] else [s[0]] + TakeUntil(s[1..], stop)
  }

  lemma {:induction false} CountCharZeroIffAbsent(s: string, c: char)
    ensures CountChar(s, c) == 0 <==> c !in s
  {
    if s != [] {
      CountCharZeroIffAbsent(s[1..], c);
      assert s == [s[0]] + s[1..];
    }
  }

  lemma {:induction false} CountCharConcat(a: string, b: string, c: char)
    ensures CountChar(a + b, c) == CountChar(a, c) + CountChar(b, c)
  {
    if a == [] {
      assert a + b == b;
    } else {
      CountCharConcat(a[1..], b, c);
      assert (a + b)[1..] == a[1..] + b;
    }
  }

  /** Splitting on a separator and joining the parts back gives the input again. */
  lemma {:induction false} SplitJoinRoundTrip(s: string, sep: char)
    ensures Join(Split(s, sep), sep) == s
  {
    if s != [] {
      var rest := Split(s[1..], sep);
      SplitJoinRoundTrip(s[1..], sep);
      if s[0] != sep && |rest| > 1 {
        assert Join(rest, sep) == rest[0] + [sep] + Join(rest[1..], sep);
        assert ([[s[0]] + rest[0]] + rest[1..])[1..] == rest[1..];
      }
    }
  }

  /** A string without the separator splits into itself alone. */
  lemma {:induction false} SplitWithoutSeparator(b: string, sep: char)
    requires sep !in b
    ensures Split(b, sep) == [b]
  {
    if b != [] {
      SplitWithoutSeparator(b[1..], sep);
      assert [b[0]] + b[1..] == b;
    }
  }

  /** A string with exactly one separator splits into the two sides of it. */
  lemma {:induction false} SplitAtOnlySeparator(a: string, b: string, sep: char)
    requires sep !in a && sep !in b
    ensures Split(a + [sep] + b, sep) == [a, b]
  {
    var s := a + [sep] + b;
    if a == [] {
      assert s[1..] == b;
      SplitWithoutSeparator(b, sep);
    } else {
      assert s[1..] == a[1..] + [sep] + b;
      SplitAtOnlySeparator(a[1..], b, sep);
      assert [a[0]] + a[1..] == a;
    }
  }

  /** JavaScript `s.lastIndexOf(c)`: the index of the last `c` in `s`, or -1. */
  function LastIndexOf(s: string, c: char): (r: int)
    ensures -1 <= r < |s|
    ensures r >= 0 ==> s[r] == c
    ensures forall j :: r < j < |s| ==> s[j] != c
  {
    if s == [] then -1
    else
      var r := LastIndexOf(s[1..], c);
      if r >= 0 then r + 1 else if s[0] == c then 0 else -1
  }

  /** The last part of a split is what follows the last separator (all of `s`
      when there is none). */
  lemma {:induction false} LastPartFollowsLastSeparator(s: string, sep: char)
    ensures var parts := Split(s, sep);
      parts[|parts| - 1] == s[LastIndexOf(s, sep) + 1..]
  {
    if s != [] {
      var rest := Split(s[1..], sep);
      LastPartFollowsLastSeparator(s[1..], sep);
      if s[0] != sep {
        CountCharZeroIffAbsent(s[1..], sep);
        if |rest| == 1 {
          assert LastIndexOf(s[1..], sep) == -1;
          assert [s[0]] + s[1..] == s;
        }
      }
    }
  }
}

=== FILE: url_rules.dfy ===
/** The URL rules and the error wording of the back end: which URLs count as
    Facebook URLs, how a submitted URL is normalised before extraction, and
    which explanation an extraction error is given. */
module UrlRules {
  import opened Wrappers
  import opened Text

  // ---------------------------------------------------------------------------
  // `is_facebook_url_valid`

  const FacebookDomain: string := "facebook.com"
  const ShortDomain: string := "fb.watch"
  const MobileDomain: string := "m." + FacebookDomain
  const WwwDomain: string := "www." + FacebookDomain

  const ValidPatterns: seq<string> := [
    FacebookDomain + "/watch", FacebookDomain + "/reel", FacebookDomain + "/videos",
    FacebookDomain + "/posts", MobileDomain, ShortDomain]

  /** Some string of `ps` occurs in `s` (Python `any(p in s for p in ps)`). */
  predicate AnyIn(s: string, ps: seq<string>) {
    exists k :: 0 <= k < |ps| && Contains(s, ps[k])
  }

  /** `is_facebook_url_valid(url)`: a non-empty URL whose lower-cased form
      contains one of the patterns or `facebook.com`. */
  predicate IsFacebookUrlValid(url: string) {
    url != [] && (AnyIn(Lower(url), ValidPatterns) || Contains(Lower(url), FacebookDomain))
  }

  /** The pattern list adds nothing to `facebook.com` and `fb.watch`: every
      other pattern contains `facebook.com`. */
  lemma FacebookUrlValidIff(url: string)
    ensures IsFacebookUrlValid(url) <==>
              url != [] && (Contains(Lower(url), FacebookDomain) || Contains(Lower(url), ShortDomain))
  {
    var s := Lower(url);
    if AnyIn(s, ValidPatterns) {
      var k :| 0 <= k < |ValidPatterns| && Contains(s, ValidPatterns[k]);
      if k < 4 {
        ContainsParts(FacebookDomain, ValidPatterns[k][|FacebookDomain|..]);
        assert FacebookDomain + ValidPatterns[k][|FacebookDomain|..] == ValidPatterns[k];
        ContainsTransitive(s, ValidPatterns[k], FacebookDomain);
      } else if k == 4 {
        ContainsParts("m.", FacebookDomain);
        ContainsTransitive(s, ValidPatterns[k], FacebookDomain);
      }
    }
    if Contains(s, ShortDomain) {
      assert Contains(s, ValidPatterns[5]);
    }
  }

  /** A URL that mentions `facebook.com` or `fb.watch`, in any case, is valid. */
  lemma MentionIsValid(url: string)
    requires Contains(url, FacebookDomain) || Contains(url, ShortDomain)
    ensures IsFacebookUrlValid(url)
  {
    assert Lower(FacebookDomain) == FacebookDomain && Lower(ShortDomain) == ShortDomain;
    if Contains(url, FacebookDomain) {
      ContainsLowerOfPiece(url, FacebookDomain);
    } else {
      ContainsLowerOfPiece(url, ShortDomain);
    }
    FacebookUrlValidIff(url);
  }

  // ---------------------------------------------------------------------------
  // The pieces `normalize_facebook_url` uses

  /** Python `s.replace(pat, rep)`: every occurrence of `pat`, scanning from the
      left without overlaps, becomes `rep`. */
  function ReplaceAll(s: string, pat: string, rep: string): (r: string)
    requires pat != []
    ensures !Contains(s, pat) ==> r == s
    ensures Contains(s, pat) ==> Contains(r, rep)
    decreases |s|
  {
    if |s| < |pat| then s
    else if s[..|pat|] == pat then
      ContainsAt(s, pat, 0);
      ContainsAt(rep + ReplaceAll(s[|pat|..], pat, rep), rep, 0);
      rep + ReplaceAll(s[|pat|..], pat, rep)
    else
      var rest := ReplaceAll(s[1..], pat, rep);
      ContainsPastFirst(s, pat);
      ContainsAfterCons(s[0], rest, rep);
      [s[0]] + rest
  }

  /** Where `p` does not start `s`, `s` contains `p` exactly when its tail does. */
  lemma ContainsPastFirst(s: string, p: string)
    requires |s| >= |p| && s[..|p|] != p
    ensures Contains(s, p) <==> Contains(s[1..], p)
  {
    assert s[0..|p|] == s[..|p|];
    if Contains(s, p) {
      var i :| 0 <= i <= |s| - |p| && OccursAt(s, p, i);
      OccursShift(s, p, i - 1);
    }
    if Contains(s[1..], p) {
      var j :| 0 <= j <= |s[1..]| - |p| && OccursAt(s[1..], p, j);
      OccursShift(s, p, j);
    }
  }

  /** A text contained in `t` is contained in `[c] + t`. */
  lemma ContainsAfterCons(c: char, t: string, p: string)
    ensures Contains(t, p) ==> Contains([c] + t, p)
  {
    if Contains(t, p) {
      ContainsInContext([c], t, [], p);
      assert [c] + t + [] == [c] + t;
    }
  }

  /** An occurrence one place into `s` is an occurrence in its tail. */
  lemma OccursShift(s: string, p: string, j: nat)
    requires s != []
    ensures OccursAt(s, p, j + 1) <==> OccursAt(s[1..], p, j)
  {
    if j + 1 + |p| <= |s| {
      assert s[1..][j..j + |p|] == s[j + 1..j + 1 + |p|];
    }
  }

  /** Where `pat` does not start `s`, `str.replace` keeps the first character. */
  lemma ReplaceAllKeepsFirst(s: string, pat: string, rep: string)
    requires pat != [] && |s| >= |pat| && s[..|pat|] != pat
    ensures ReplaceAll(s, pat, rep) == [s[0]] + ReplaceAll(s[1..], pat, rep)
  {
  }

  /** Concatenation regrouped; kept apart so that the step below reasons about
      it without `ReplaceAll` in view. */
  lemma Regroup(a: string, b: string, c: string)
    ensures a + (b + c) == (a + b) + c
  {
  }

  /** Where `pat` starts `s`, `str.replace` puts `rep` first. */
  lemma ReplaceAllAtStart(s: string, pat: string, rep: string, i: nat)
    requires pat != [] && i == 0 && |s| >= |pat| && s[..|pat|] == pat
    ensures ReplaceAll(s, pat, rep) == s[..i] + (rep + ReplaceAll(s[i + |pat|..], pat, rep))
  {
    var after := s[i + |pat|..];
    assert after == s[|pat|..];
    var r := rep + ReplaceAll(after, pat, rep);
    assert ReplaceAll(s, pat, rep) == r;
    assert s[..i] + r == r;
  }

  /** A leftmost occurrence past the first character is one place earlier, and
      still leftmost, in the tail. */
  lemma LeftmostInTail(s: string, pat: string, i: nat)
    requires 0 < i && OccursAt(s, pat, i) && forall j :: 0 <= j < i ==> !OccursAt(s, pat, j)
    ensures OccursAt(s[1..], pat, i - 1) && forall j :: 0 <= j < i - 1 ==> !OccursAt(s[1..], pat, j)
  {
    OccursShift(s, pat, i - 1);
    forall j | 0 <= j < i - 1
      ensures !OccursAt(s[1..], pat, j)
    {
      OccursShift(s, pat, j);
    }
  }

  /** One step of `ReplaceAllAtFirst`: what holds of the tail `t` of `s` holds
      of `s`, one place further on, when `pat` does not start `s`. */
  lemma ReplaceAllStep(s: string, t: string, pat: string, rep: string, k: nat, i: nat)
    requires pat != [] && i == k + 1 && i + |pat| <= |s| && s[..|pat|] != pat && t == s[1..]
    requires ReplaceAll(t, pat, rep) == t[..k] + (rep + ReplaceAll(t[k + |pat|..], pat, rep))
    ensures ReplaceAll(s, pat, rep) == s[..i] + (rep + ReplaceAll(s[i + |pat|..], pat, rep))
  {
    TailSlices(s, k, k + |pat|);
    ReplaceAllKeepsFirst(s, pat, rep);
    Regroup([s[0]], t[..k], rep + ReplaceAll(s[k + 1 + |pat|..], pat, rep));
  }

  /** Slices of the tail of `s` are slices of `s` one place further on. */
  lemma TailSlices(s: string, k: nat, m: nat)
    requires k + 1 <= |s| && m + 1 <= |s|
    ensures [s[0]] + s[1..][..k] == s[..k + 1]
    ensures s[1..][m..] == s[m + 1..]
  {
  }

  /** Where `pat` first occurs in `s`; `|s|` when it does not. */
  function FirstOccurrence(s: string, pat: string): nat
    requires pat != []
    decreases |s|
  {
    if |s| < |pat| then |s|
    else if s[..|pat|] == pat then 0
    else 1 + FirstOccurrence(s[1..], pat)
  }

  /** The leftmost occurrence is where `FirstOccurrence` finds it. */
  lemma {:induction false} FirstOccurrenceIsLeftmost(s: string, pat: string, i: nat)
    requires pat != []
    requires OccursAt(s, pat, i) && forall j :: 0 <= j < i ==> !OccursAt(s, pat, j)
    ensures FirstOccurrence(s, pat) == i
    decreases i
  {
    if i == 0 {
      assert s[..|pat|] == pat;
    } else {
      assert !OccursAt(s, pat, 0);
      LeftmostInTail(s, pat, i);
      FirstOccurrenceIsLeftmost(s[1..], pat, i - 1);
    }
  }

  /** `str.replace` keeps what comes before the first occurrence, rewrites it and
      carries on after it. */
  lemma {:induction false} ReplaceAllAtFirst(s: string, pat: string, rep: string, i: nat)
    requires pat != [] && i == FirstOccurrence(s, pat) && i + |pat| <= |s|
    ensures ReplaceAll(s, pat, rep) == s[..i] + (rep + ReplaceAll(s[i + |pat|..], pat, rep))
    decreases |s|
  {
    if s[..|pat|] == pat {
      ReplaceAllAtStart(s, pat, rep, i);
    } else {
      var t := s[1..];
      var k: nat := i - 1;
      ReplaceAllAtFirst(t, pat, rep, k);
      ReplaceAllStep(s, t, pat, rep, k, i);
    }
  }

  /** `str.replace` rewrites the leftmost occurrence of `pat`, keeps what comes
      before it, and carries on after it. */
  lemma ReplaceAllLeftmost(s: string, pat: string, rep: string, i: nat)
    requires pat != []
    requires OccursAt(s, pat, i) && forall j :: 0 <= j < i ==> !OccursAt(s, pat, j)
    ensures ReplaceAll(s, pat, rep) == s[..i] + (rep + ReplaceAll(s[i + |pat|..], pat, rep))
  {
    FirstOccurrenceIsLeftmost(s, pat, i);
    ReplaceAllAtFirst(s, pat, rep, i);
  }

  const MinIdDigits: nat := 15

  /** The run of digits that `s` starts with. */
  function DigitPrefix(s: string): (r: string)
    ensures |r| <= |s| && r == s[..|r|] && AllDigits(r)
    ensures |r| < |s| ==> !IsDigit(s[|r|])
  {
    if s == [] || !IsDigit(s[0]) then [] else [s[0]] + DigitPrefix(s[1..])
  }

  /** At least fifteen digits start at index `i` of `s`. */
  predicate LongDigitRunAt(s: string, i: int) {
    0 <= i && i + MinIdDigits <= |s| && AllDigits(s[i..i + MinIdDigits])
  }

  /** `re.search(r'(\d{15,})', s)`: the leftmost run of at least fifteen
      digits, taken as far as it goes; `None` when there is none. */
  function FindVideoId(s: string): (r: Option<string>)
    ensures r.None? <==> forall i :: 0 <= i <= |s| ==> !LongDigitRunAt(s, i)
    ensures r.Some? ==> |r.value| >= MinIdDigits && AllDigits(r.value) && Contains(s, r.value)
    decreases |s|
  {
    if |s| < MinIdDigits then None
    else if AllDigits(s[..MinIdDigits]) then
      var id := DigitPrefix(s);
      assert forall j :: 0 <= j < MinIdDigits ==> IsDigit(s[j]) by {
        forall j | 0 <= j < MinIdDigits ensures IsDigit(s[j]) {
          assert s[..MinIdDigits][j] == s[j];
        }
      }
      ContainsAt(s, id, 0);
      assert LongDigitRunAt(s, 0);
      Some(id)
    else
      var r := FindVideoId(s[1..]);
      assert !LongDigitRunAt(s, 0);
      assert forall i :: 1 <= i <= |s| ==> (LongDigitRunAt(s, i) <==> LongDigitRunAt(s[1..], i - 1)) by {
        forall i | 1 <= i <= |s| ensures LongDigitRunAt(s, i) <==> LongDigitRunAt(s[1..], i - 1) {
          if i + MinIdDigits <= |s| {
            assert s[1..][i - 1..i - 1 + MinIdDigits] == s[i..i + MinIdDigits];
          }
        }
      }
      assert r.Some? ==> Contains(s, r.value) by {
        if r.Some? {
          ContainsInContext([s[0]], s[1..], [], r.value);
          assert [s[0]] + s[1..] + [] == s;
        }
      }
      assert r.None? ==> forall i :: 0 <= i <= |s| ==> !LongDigitRunAt(s, i) by {
        if r.None? {
          forall i | 0 <= i <= |s| ensures !LongDigitRunAt(s, i) {
            if i >= 1 {
              assert !LongDigitRunAt(s[1..], i - 1);
            }
          }
        }
      }
      assert r.Some? ==> exists i :: 0 <= i <= |s| && LongDigitRunAt(s, i) by {
        if r.Some? {
          var j :| 0 <= j <= |s[1..]| && LongDigitRunAt(s[1..], j);
          assert LongDigitRunAt(s, j + 1);
        }
      }
      r
  }

  /** A run one place into `s` is a run in its tail. */
  lemma DigitRunShift(s: string, j: nat)
    requires s != []
    ensures LongDigitRunAt(s, j + 1) <==> LongDigitRunAt(s[1..], j)
  {
    if j + 1 + MinIdDigits <= |s| {
      assert s[1..][j..j + MinIdDigits] == s[j + 1..j + 1 + MinIdDigits];
    }
  }

  /** The identifier found is the leftmost run of at least fifteen digits,
      taken as far as it goes. */
  lemma {:induction false} FindVideoIdLeftmost(s: string)
    ensures FindVideoId(s).Some? ==>
              exists i :: LongDigitRunAt(s, i) && (forall j :: 0 <= j < i ==> !LongDigitRunAt(s, j))
                          && FindVideoId(s).value == DigitPrefix(s[i..])
    decreases |s|
  {
    if |s| < MinIdDigits {
    } else if AllDigits(s[..MinIdDigits]) {
      assert s[0..] == s && s[0..MinIdDigits] == s[..MinIdDigits];
    } else if FindVideoId(s[1..]).Some? {
      FindVideoIdLeftmost(s[1..]);
      var k :| LongDigitRunAt(s[1..], k) && (forall j :: 0 <= j < k ==> !LongDigitRunAt(s[1..], j))
               && FindVideoId(s[1..]).value == DigitPrefix(s[1..][k..]);
      assert s[1..][k..] == s[k + 1..];
      assert s[0..MinIdDigits] == s[..MinIdDigits];
      DigitRunShift(s, k);
      forall j | 1 <= j < k + 1 ensures !LongDigitRunAt(s, j) {
        DigitRunShift(s, j - 1);
      }
    }
  }

  /** The index of the first character of `s` satisfying `p`, or `|s|`. */
  function FirstIndex(s: string, p: char -> bool): (r: nat)
    ensures r <= |s| && (r < |s| ==> p(s[r]))
    ensures forall j :: 0 <= j < r ==> !p(s[j])
  {
    if s == [] || p(s[0]) then 0 else 1 + FirstIndex(s[1..], p)
  }

  predicate IsColon(c: char) {
    c == ':'
  }

  predicate IsAsciiLetter(c: char) {
    ('a' <= c <= 'z') || ('A' <= c <= 'Z')
  }

  /** Characters allowed in a URL scheme. */
  predicate IsSchemeChar(c: char) {
    IsAsciiLetter(c) || IsDigit(c) || c == '+' || c == '-' || c == '.'
  }

  /** Characters that end a network location. */
  predicate IsNetlocEnd(c: char) {
    c == '/' || c == '?' || c == '#'
  }

  /** `url[..i]` is a scheme followed by `:`: an ASCII letter, then scheme characters. */
  predicate SchemeEndsAt(url: string, i: int) {
    0 < i < |url| && url[i] == ':' && IsAsciiLetter(url[0]) && forall j :: 0 <= j < i ==> IsSchemeChar(url[j])
  }

  /** The URL without its scheme: a scheme is an ASCII letter followed by
      scheme characters up to the first `:`. */
  function AfterScheme(url: string): (rest: string)
    ensures |rest| <= |url| && rest == url[|url| - |rest|..]
    ensures |rest| < |url| <==> exists i :: SchemeEndsAt(url, i)
    ensures |rest| < |url| ==> SchemeEndsAt(url, |url| - |rest| - 1)
  {
    var i := FirstIndex(url, IsColon);
    assert forall k :: SchemeEndsAt(url, k) ==> k == i by {
      forall k | SchemeEndsAt(url, k) ensures k == i {
        assert !IsColon(url[k]) ==> false;
        assert forall j :: 0 <= j < k ==> !IsColon(url[j]) by {
          forall j | 0 <= j < k ensures !IsColon(url[j]) {
            assert IsSchemeChar(url[j]);
          }
        }
      }
    }
    if 0 < i < |url| && IsAsciiLetter(url[0]) && (forall j :: 0 <= j < i ==> IsSchemeChar(url[j])) then
      assert SchemeEndsAt(url, i);
      url[i + 1..]
    else url
  }

  /** `n` is the network location of `rest`, the URL after its scheme: after a
      leading `//`, everything up to the first `/`, `?` or `#` (or the end);
      empty when `rest` does not start with `//`. */
  predicate IsNetlocOf(rest: string, n: string) {
    if |rest| >= 2 && rest[..2] == "//" then
      && 2 + |n| <= |rest| && rest[2..2 + |n|] == n
      && (forall i :: 0 <= i < |n| ==> !IsNetlocEnd(n[i]))
      && (2 + |n| == |rest| || IsNetlocEnd(rest[2 + |n|]))
    else n == []
  }

  /** The network location of `rest`, found by scanning for its end. */
  function NetlocOf(rest: string): (n: string)
    ensures IsNetlocOf(rest, n)
  {
    if |rest| >= 2 && rest[..2] == "//" then
      var k := FirstIndex(rest[2..], IsNetlocEnd);
      var n := rest[2..2 + k];
      assert forall i :: 0 <= i < k ==> n[i] == rest[2..][i];
      assert 2 + k < |rest| ==> rest[2 + k] == rest[2..][k];
      n
    else []
  }

  /** Inside `rest`, a network location spans no end character. */
  lemma NetlocHasNoEnd(rest: string, n: string)
    requires IsNetlocOf(rest, n)
    ensures |rest| >= 2 && rest[..2] == "//" ==> forall i :: 2 <= i < 2 + |n| ==> !IsNetlocEnd(rest[i])
  {
    if |rest| >= 2 && rest[..2] == "//" {
      forall i | 2 <= i < 2 + |n|
        ensures !IsNetlocEnd(rest[i])
      {
        assert rest[i] == n[i - 2];
      }
    }
  }

  /** No network location of `rest` is longer than another: the scan stops at
      the first end character. */
  lemma NetlocNotLonger(rest: string, n1: string, n2: string)
    requires IsNetlocOf(rest, n1) && IsNetlocOf(rest, n2)
    ensures |n2| <= |n1|
  {
    NetlocHasNoEnd(rest, n2);
  }

  /** The network location is determined by the URL: there is one `n` per `rest`. */
  lemma NetlocOfUnique(rest: string, n1: string, n2: string)
    requires IsNetlocOf(rest, n1) && IsNetlocOf(rest, n2)
    ensures n1 == n2
  {
    NetlocNotLonger(rest, n1, n2);
    NetlocNotLonger(rest, n2, n1);
  }

  /** What `urlparse(url).netloc` reads: after the scheme, a `//` starts the
      network location, which runs to the first `/`, `?` or `#`. `None` when
      `urlparse` raises because the location has a `[` without a `]` or the
      reverse. */
  function ParseNetloc(url: string): (r: Option<string>)
    ensures r.Some? ==> Contains(url, r.value)
    ensures r.Some? ==> IsNetlocOf(AfterScheme(url), r.value) && (('[' in r.value) == (']' in r.value))
    ensures forall n :: IsNetlocOf(AfterScheme(url), n) ==> (r.None? <==> ('[' in n) != (']' in n))
  {
    var rest := AfterScheme(url);
    var netloc := NetlocOf(rest);
    NetlocOfOnly(rest, netloc);
    if ('[' in netloc) != (']' in netloc) then None
    else
      NetlocInUrl(url, rest, netloc);
      Some(netloc)
  }

  /** `NetlocOf` finds every network location there is. */
  lemma NetlocOfOnly(rest: string, netloc: string)
    requires netloc == NetlocOf(rest)
    ensures forall n :: IsNetlocOf(rest, n) ==> n == netloc
  {
    forall n | IsNetlocOf(rest, n) ensures n == netloc {
      NetlocOfUnique(rest, n, netloc);
    }
  }

  /** The network location is a piece of the URL it was read from. */
  lemma NetlocInUrl(url: string, rest: string, netloc: string)
    requires |rest| <= |url| && rest == url[|url| - |rest|..]
    requires IsNetlocOf(rest, netloc)
    ensures Contains(url, netloc)
  {
    if netloc != "" {
      var off := |url| - |rest| + 2;
      assert url[off..off + |netloc|] == rest[2..2 + |netloc|];
      ContainsAt(url, netloc, off);
    } else {
      ContainsAt(url, netloc, 0);
    }
  }

  // ---------------------------------------------------------------------------
  // `normalize_facebook_url`

  const ValidDomains: seq<string> := [FacebookDomain, WwwDomain, MobileDomain, ShortDomain]
  const VideoPaths: seq<string> := ["/watch", "/reel", "/videos", "/posts"]
  const WatchUrlPrefix: string := "https://" + WwwDomain + "/watch/?v="

  /** The domain check at the end of the normaliser: keep `u` when its network
      location names a Facebook domain; when `urlparse` raises, the handler
      keeps `u` when it mentions `facebook.com` or `fb.watch`. */
  function DomainCheck(u: string): Option<string> {
    match ParseNetloc(u)
    case None => if Contains(u, FacebookDomain) || Contains(u, ShortDomain) then Some(u) else None
    case Some(n) => if AnyIn(Lower(n), ValidDomains) then Some(u) else None
  }

  /** Lines 343-351, on the rewritten URL `u`: keep it when it has a video
      path, turn a long digit run into a watch link, else the domain check. */
  function FacebookLink(u: string): Option<string> {
    if AnyIn(u, VideoPaths) then Some(u)
    else match FindVideoId(u)
      case Some(id) => Some(WatchUrlPrefix + id)
      case None => DomainCheck(u)
  }

  /** `normalize_facebook_url(url)`: `fb.watch` links pass; a `facebook.com`
      link has `m.facebook.com` rewritten to `www.facebook.com` and goes on as
      above; anything else goes to the domain check. */
  function NormalizeFacebookUrl(url: string): (r: Option<string>)
    ensures Contains(url, ShortDomain) ==> r == Some(url)
  {
    if Contains(url, ShortDomain) then Some(url)
    else if Contains(url, FacebookDomain) || Contains(url, MobileDomain) then
      FacebookLink(ReplaceAll(url, MobileDomain, WwwDomain))
    else DomainCheck(url)
  }

  /** The mobile rewrite keeps a mention of `facebook.com`. */
  lemma RewriteKeepsFacebook(url: string)
    requires Contains(url, FacebookDomain) || Contains(url, MobileDomain)
    ensures Contains(ReplaceAll(url, MobileDomain, WwwDomain), FacebookDomain)
  {
    var u := ReplaceAll(url, MobileDomain, WwwDomain);
    if Contains(url, MobileDomain) {
      ContainsParts("www.", FacebookDomain);
      ContainsTransitive(u, WwwDomain, FacebookDomain);
    }
  }

  /** What passes the domain check is a valid Facebook URL. */
  lemma DomainCheckIsValid(u: string)
    requires DomainCheck(u).Some?
    ensures DomainCheck(u) == Some(u) && IsFacebookUrlValid(u)
  {
    match ParseNetloc(u)
    case None =>
      MentionIsValid(u);
    case Some(n) =>
      var k :| 0 <= k < |ValidDomains| && Contains(Lower(n), ValidDomains[k]);
      ContainsLowerOfPiece(u, n);
      ContainsTransitive(Lower(u), Lower(n), ValidDomains[k]);
      DomainMentionsFacebook(Lower(u), k);
      FacebookUrlValidIff(u);
  }

  /** Each listed domain is `fb.watch` or contains `facebook.com`. */
  lemma DomainMentionsFacebook(s: string, k: nat)
    requires k < |ValidDomains| && Contains(s, ValidDomains[k])
    ensures Contains(s, FacebookDomain) || Contains(s, ShortDomain)
  {
    if k == 1 {
      ContainsParts("www.", FacebookDomain);
      ContainsTransitive(s, WwwDomain, FacebookDomain);
    } else if k == 2 {
      ContainsParts("m.", FacebookDomain);
      ContainsTransitive(s, MobileDomain, FacebookDomain);
    }
  }

  /** A rewritten Facebook link that is kept is valid. */
  lemma FacebookLinkIsValid(u: string)
    requires Contains(u, FacebookDomain) && FacebookLink(u).Some?
    ensures IsFacebookUrlValid(FacebookLink(u).value)
  {
    if AnyIn(u, VideoPaths) {
      MentionIsValid(u);
    } else if FindVideoId(u).Some? {
      var id := FindVideoId(u).value;
      ContainsParts("www.", FacebookDomain);
      ContainsInContext("https://", WwwDomain, "/watch/?v=" + id, FacebookDomain);
      assert "https://" + WwwDomain + ("/watch/?v=" + id) == WatchUrlPrefix + id;
      MentionIsValid(WatchUrlPrefix + id);
    } else {
      DomainCheckIsValid(u);
    }
  }

  /** Every URL the normaliser returns passes `is_facebook_url_valid`. */
  lemma NormalizedIsValid(url: string)
    requires NormalizeFacebookUrl(url).Some?
    ensures IsFacebookUrlValid(NormalizeFacebookUrl(url).value)
  {
    if Contains(url, ShortDomain) {
      MentionIsValid(url);
    } else if Contains(url, FacebookDomain) || Contains(url, MobileDomain) {
      RewriteKeepsFacebook(url);
      FacebookLinkIsValid(ReplaceAll(url, MobileDomain, WwwDomain));
    } else {
      DomainCheckIsValid(url);
    }
  }

  // ---------------------------------------------------------------------------
  // `get_helpful_error_message`

  /** Which explanation an error gets, by the first test that matches. */
  datatype ErrorKind = NoFormats | PrivateOrLogin | NotAvailable | Timeout | Unrecognised

  /** The lower-cased error text, or the empty string when there is none. */
  function ErrorLower(errorMsg: Option<string>): string {
    if errorMsg.Some? then Lower(errorMsg.value) else ""
  }

  function ErrorKindOf(errorMsg: Option<string>): ErrorKind {
    var e := ErrorLower(errorMsg);
    if Contains(e, "no video formats found") then NoFormats
    else if Contains(e, "private") || Contains(e, "login") then PrivateOrLogin
    else if Contains(e, "not available") then NotAvailable
    else if Contains(e, "timeout") then Timeout
    else Unrecognised
  }

  /** How the error text is rendered inside the generic message (`None` when absent). */
  function ErrorDetails(errorMsg: Option<string>): string {
    if errorMsg.Some? then errorMsg.value else "None"
  }

  // Each explanation opens with a sentence of its own.
  const NoFormatsLead: string := "This Facebook video cannot be downloaded."
  const PrivateLead: string := "This video is private or requires login."
  const NotAvailableLead: string := "This video is not available."
  const TimeoutLead: string := "Connection timeout."
  const GenericLead: string := "Unable to extract video information."

  const NoFormatsMessage: string := NoFormatsLead + NoFormatsBody
  const NoFormatsBody: string :=
    " Possible reasons:\n"
    + "\U{2022} The video is private or restricted\n"
    + "\U{2022} The video requires login to view\n"
    + "\U{2022} The video is from a private group or page\n"
    + "\U{2022} Facebook has changed their video format (this happens frequently)\n"
    + "\U{2022} The video might be a live stream or story\n"
    + "\n"
    + "Try these solutions:\n"
    + "1. Make sure the video is publicly accessible\n"
    + "2. Try copying the URL again from a different browser\n"
    + "3. Check if the video plays without logging in\n"
    + "4. Try a different Facebook video URL format"

  const PrivateMessage: string := PrivateLead + PrivateBody
  const PrivateBody: string :=
    " Please try with a public Facebook video that doesn't require authentication."

  const NotAvailableMessage: string := NotAvailableLead + NotAvailableBody
  const NotAvailableBody: string :=
    " It might have been deleted, made private, or restricted in your region."

  const TimeoutMessage: string := TimeoutLead + TimeoutBody
  const TimeoutBody: string :=
    " Please check your internet connection and try again."

  const GenericHead: string := GenericLead + GenericReasons
  const GenericReasons: string :=
    " This could be due to:\n"
    + "\U{2022} Facebook's frequent changes to their video system\n"
    + "\U{2022} The video being private or restricted\n"
    + "\U{2022} Network connectivity issues\n"
    + "\U{2022} The video URL format not being supported\n"
    + "\n"
    + "Error details: "

  const GenericTail: string :=
    "\n"
    + "\n"
    + "Please try:\n"
    + "1. A different Facebook video URL\n"
    + "2. Checking if the video is publicly accessible\n"
    + "3. Refreshing the page and trying again"

  /** The explanation of each kind; `details` is quoted by the generic one. */
  function MessageFor(kind: ErrorKind, details: string): string {
    match kind
    case NoFormats => NoFormatsMessage
    case PrivateOrLogin => PrivateMessage
    case NotAvailable => NotAvailableMessage
    case Timeout => TimeoutMessage
    case Unrecognised => GenericHead + details + GenericTail
  }

  /** `get_helpful_error_message(error_msg, url)`; the URL is not used. */
  function HelpfulErrorMessage(errorMsg: Option<string>, url: string): string {
    MessageFor(ErrorKindOf(errorMsg), ErrorDetails(errorMsg))
  }

  /** Reading an explanation back: its opening sentence names its kind. */
  function KindOfMessage(m: string): ErrorKind {
    if StartsWith(m, NoFormatsLead) then NoFormats
    else if StartsWith(m, PrivateLead) then PrivateOrLogin
    else if StartsWith(m, NotAvailableLead) then NotAvailable
    else if StartsWith(m, TimeoutLead) then Timeout
    else Unrecognised
  }

  lemma NoFormatsReadsBack(rest: string)
    ensures KindOfMessage(NoFormatsLead + rest) == NoFormats
  {
    StartsWithConcat(NoFormatsLead, rest);
  }

  lemma PrivateReadsBack(rest: string)
    ensures KindOfMessage(PrivateLead + rest) == PrivateOrLogin
  {
    StartsWithConcat(PrivateLead, rest);
    DifferAt(PrivateLead + rest, NoFormatsLead, 5);
  }

  lemma NotAvailableReadsBack(rest: string)
    ensures KindOfMessage(NotAvailableLead + rest) == NotAvailable
  {
    var m := NotAvailableLead + rest;
    StartsWithConcat(NotAvailableLead, rest);
    DifferAt(m, NoFormatsLead, 5);
    DifferAt(m, PrivateLead, 14);
  }

  lemma TimeoutReadsBack(rest: string)
    ensures KindOfMessage(TimeoutLead + rest) == Timeout
  {
    var m := TimeoutLead + rest;
    StartsWithConcat(TimeoutLead, rest);
    DifferAt(m, NoFormatsLead, 0);
    DifferAt(m, PrivateLead, 0);
    DifferAt(m, NotAvailableLead, 0);
  }

  lemma GenericReadsBack(details: string)
    ensures KindOfMessage(GenericHead + details + GenericTail) == Unrecognised
  {
    var m := GenericHead + details + GenericTail;
    assert m[0] == GenericLead[0];
    DifferAt(m, NoFormatsLead, 0);
    DifferAt(m, PrivateLead, 0);
    DifferAt(m, NotAvailableLead, 0);
    DifferAt(m, TimeoutLead, 0);
  }

  /** Each explanation reads back as its own kind. */
  lemma MessageForReadsBack(kind: ErrorKind, details: string)
    ensures KindOfMessage(MessageFor(kind, details)) == kind
  {
    match kind
    case NoFormats => NoFormatsReadsBack(NoFormatsBody);
    case PrivateOrLogin => PrivateReadsBack(PrivateBody);
    case NotAvailable => NotAvailableReadsBack(NotAvailableBody);
    case Timeout => TimeoutReadsBack(TimeoutBody);
    case Unrecognised => GenericReadsBack(details);
  }

  /** The explanation tells which kind of error it explains: reading it back
      gives the kind the error was classified as. */
  lemma MessageNamesItsKind(errorMsg: Option<string>, url: string)
    ensures KindOfMessage(HelpfulErrorMessage(errorMsg, url)) == ErrorKindOf(errorMsg)
  {
    MessageForReadsBack(ErrorKindOf(errorMsg), ErrorDetails(errorMsg));
  }

  /** The generic explanation quotes the error text. */
  lemma GenericMessageQuotesError(errorMsg: Option<string>, url: string)
    requires ErrorKindOf(errorMsg) == Unrecognised
    ensures Contains(HelpfulErrorMessage(errorMsg, url), ErrorDetails(errorMsg))
  {
    ContainsAt(ErrorDetails(errorMsg), ErrorDetails(errorMsg), 0);
    ContainsInContext(GenericHead, ErrorDetails(errorMsg), GenericTail, ErrorDetails(errorMsg));
  }

  /** The classification ignores case: an error text and its lower-cased form
      get the same explanation. */
  lemma ErrorKindIgnoresCase(m: string)
    ensures ErrorKindOf(Some(m)) == ErrorKindOf(Some(Lower(m)))
  {
    LowerIdempotent(m);
  }
}

=== FILE: wrappers.dfy ===
/** Option and Result values for the absent keys and raised exceptions of the modelled code. */
module Wrappers {

  datatype Option<+T> = None | Some(value: T)

  datatype Result<+R, +E> = Ok(value: R) | Err(error: E)
}
